=== FILE: README.md ===
# ESP overlay model

A Dafny model of the 2D "ESP" overlay in `xIR13ND.js`. Each frame, the
overlay draws the following around a 3D model shown by a three.js viewer:

- a box (four styles);
- a stick-figure skeleton;
- a health bar, a name and a distance label;
- a tracer line.

Every canvas routine becomes a pure function. It returns a sequence of
abstract draw commands (`Draw.Command`) instead of calling the canvas.
The canvas state each call reads is folded into the command: the stroke
or fill colour and the line width. The model has these modules:

| module | models |
|---|---|
| `Nullable`, `Reals`, `Geometry` | `Option`, `Math.abs`/`min`/`max`, vectors, the bounding box, and `worldToScreen` (normalised device coordinates to canvas pixels, rejecting only `z > 1`) |
| `Colors` | `hexToRgba`, including JavaScript `parseInt(…, 16)` and `slice` on arbitrary strings |
| `Draw` | the draw-command vocabulary |
| `Options` | the option record `espOptions` and its start-up values |
| `HealthOscillator`, `HealthBar` | `updateHealthAnimation` as a state machine with a coin input, and `drawHealthBar` |
| `BoxStyles` | `drawBox`: outline, glow, corner brackets, and dispatch to the wireframe; `drawCorners` and `drawCornerLines` |
| `Wireframe` | `draw3DBox`: the corner order, edge and face tables, and the all-or-nothing rule |
| `Skeleton` | `drawSkeleton`: joint placement, the 17 bones, and the two stroke passes |
| `Labels` | `drawTracers`, `drawName` and `drawDistance`, with a printer and a parser for the distance label |
| `Overlay` | `drawESP` (bail-outs, measurements, layer order) and one `animate` step |

Outside inputs are parameters:

- The camera (`vector.project`) is a function from world points to
  normalised device coordinates.
- The outcome of `Math.random() < 0.02` is a boolean coin.
- The glow pulse `(sin(Date.now()·0.005)+1)/2` is a real number.
- The camera's floored distance from the origin is an integer.
- The mouse position is a point.

Health 75 colours the bar with red 127: the code floors `255·0.5 = 127.5`.

## Model

| member | source | states |
|---|---|---|
| Nullable.Present | xIR13ND.js:664-668 | dropping the `null` projections keeps all eight entries exactly when every corner projected, and then keeps them in place |
| Geometry.NdcToScreen | xIR13ND.js:272-283 | the point is rejected exactly when its depth exceeds 1; the depth is passed through; device coordinates in [-1,1] land inside the canvas |
| Geometry.WorldToScreen | xIR13ND.js:272-283 | a world point projects exactly when the camera puts it no further than depth 1; the depth is the camera's; on a non-empty canvas the pixel maps back to the camera's device point |
| Geometry.ScreenToNdc | xIR13ND.js:276-278 | the inverse pixel-to-device mapping keeps the depth |
| Geometry.NdcRoundTrip | xIR13ND.js:276-278 | mapping a visible device point to the canvas and back gives the same point |
| Geometry.ScreenRoundTrip | xIR13ND.js:276-280 | mapping a canvas point to device coordinates and back gives the same point |
| Geometry.NdcCorners | xIR13ND.js:276-277 | the device corners (-1,1) and (1,-1) and the origin map to the canvas's top-left and bottom-right corners and its centre |
| Geometry.NdcXMonotone | xIR13ND.js:276 | canvas x grows with device x |
| Geometry.NdcYFlipped | xIR13ND.js:277 | canvas y falls as device y grows: the y axis is flipped |
| Geometry.NoClipping | xIR13ND.js:280-282 | a visible point right of the device range is returned, beyond the canvas's right edge, not clipped |
| Colors.ParseSigned | xIR13ND.js:228-230 | the sign of `parseInt`'s result follows a leading minus sign |
| Colors.Slice | xIR13ND.js:228-230 | JavaScript `slice` clamps both ends to the string: inside the string it is the substring, past the end it runs to the end, and an empty or reversed range is empty |
| Colors.TrimStartSkipsWhiteSpace | xIR13ND.js:228-230 | `parseInt`'s leading trim drops exactly the maximal run of JavaScript white space: what remains is a suffix, everything dropped is white space, and what remains does not start with white space |
| Colors.DigitRun | xIR13ND.js:228-230 | the longest run of hex digits at the start: every character in it is a digit and the next one is not |
| Colors.ReadDigitsValue | xIR13ND.js:228-230 | reading digits consumes exactly the leading digit run and yields its base-16 value, shifted past anything already read; with no digit it keeps what it had |
| Colors.ParseMagnitudeValue | xIR13ND.js:228-230 | after an optional `0x`/`0X` prefix, `parseInt(…, 16)` is the value of the leading digit run, and `NaN` when there is none |
| Colors.ParseIntHex | xIR13ND.js:228-230 | `parseInt` of an empty slice is `NaN` (`None`) |
| Colors.ParseIntHexValue | xIR13ND.js:228-230 | `parseInt(s, 16)` skips leading white space, one `+` or `-` and an optional `0x`; it is `NaN` exactly when no hex digit follows, and otherwise the leading digit run's value, negated after a `-` |
| Colors.ParseIntHexSamples | xIR13ND.js:228-230 | `-f` reads as -15, `+a` as 10, and ` 0x1g` stops at the `g` and reads as 1 |
| Colors.HexToRgba | xIR13ND.js:227-232 | alpha passes through unchanged; a string of at most one character yields three `NaN` channels |
| Colors.Channel | xIR13ND.js:228-230 | a slice starting past the string's end is `NaN` |
| Colors.ChannelOfDigits | xIR13ND.js:228-230 | two hex digits at a slice position read as their byte value |
| Colors.ParseTwoDigits | xIR13ND.js:228-230 | `parseInt` of two hex digits is `16·hi + lo`, within [0,255] |
| Colors.HexToRgbaChannels | xIR13ND.js:227-232 | for `#` followed by six hex digits, each channel is the value of its two-digit slice and alpha is unchanged |
| Colors.FormatHex | xIR13ND.js:954-958 | the colour picker's `#rrggbb` text for three bytes is well formed |
| Colors.FormatThenParse | xIR13ND.js:227-232 | reading back a formatted colour gives the three bytes it was formatted from |
| Colors.FormattedBytes | xIR13ND.js:227-232 | each two-digit field of a formatted colour holds its byte |
| Colors.ParseThenFormat | xIR13ND.js:227-232 | reformatting the three channels read from a well-formed lower-case colour gives back the same string |
| Colors.RewriteByte | xIR13ND.js:228-230 | a field read and re-printed is the same two characters |
| Colors.ByteHexOfDigits | xIR13ND.js:228-230 | printing the byte value of two lower-case digits gives those two digits |
| Colors.LowerDigitRoundTrip | xIR13ND.js:228-230 | a lower-case hex digit printed from its value is itself |
| Colors.HexChar | xIR13ND.js:954-958 | the printed digit is a lower-case hex digit whose value is the given one |
| Colors.ByteHex | xIR13ND.js:954-958 | two digits whose combined value is the given byte |
| Colors.ShorthandIsMisread | xIR13ND.js:228-230 | a three-digit `#fff` is read as red 255, green 15, and a `NaN` blue |
| Colors.DefaultBoxColor | xIR13ND.js:227-232 | the default box colour `#7b68ee` reads as (123, 104, 238) |
| Options.DefaultsWellFormed | xIR13ND.js:22-40 | every default colour is a well-formed `#rrggbb`; every layer but the hat starts on, with the outline box, no fill, and tracers from the bottom |
| HealthOscillator.Easing | xIR13ND.js:207-208 | the easing factor is within [0,1] on [0,100], and is 1 exactly at 50 |
| HealthOscillator.Speed | xIR13ND.js:207-210 | the step is within [0.15, 0.5] for a value in [0,100] |
| HealthOscillator.SpeedShape | xIR13ND.js:207-210 | the step is symmetric about 50, where it is largest (0.5), and is 0.15 at both bounds |
| HealthOscillator.Tick | xIR13ND.js:206-225 | a valid state stays valid (value in [0,100], direction ±1); the value moves by the eased `Speed` in its direction and rests on 0 or 100 exactly when that move reaches or passes the bound; the direction turns exactly when the coin succeeds on a tick that ends on a bound, and then towards the interior (to 1 at 0, to -1 at 100); a failed coin never turns it |
| HealthOscillator.TickStepBound | xIR13ND.js:206-219 | from a valid state the value never moves further than the eased speed at its old value |
| HealthOscillator.TickDescends | xIR13ND.js:212-219 | a descending value never rises; it falls by at least 0.15 unless it clamps to 0; it keeps descending unless the coin flips it at 0 |
| HealthOscillator.TickAscends | xIR13ND.js:212-224 | the mirror image for an ascending value and the bound 100 |
| HealthOscillator.DwellAtBounds | xIR13ND.js:214-224 | at a bound, the value stays put and only a successful coin turns it round |
| HealthOscillator.Run | xIR13ND.js:184-204 | any number of frames keeps a valid state valid |
| HealthOscillator.DescentWithoutFlip | xIR13ND.js:206-225 | without a successful coin, descending frames fall by at least 0.15 each until 0 and keep descending |
| HealthOscillator.InitialReachesZero | xIR13ND.js:18-20 | from the start-up state (100, descending), 667 frames without a flip reach (0, descending) |
| HealthBar.Percent | xIR13ND.js:598 | the fill fraction is clamped to [0,1] and equals health/100 inside [0,100] |
| HealthBar.ColorOf | xIR13ND.js:603-610 | both channels are within [0,255], and one of them is 255 |
| HealthBar.HealthColorRamp | xIR13ND.js:603-610 | above 50, r is floor(255·(100-h)/50) and g is 255; otherwise r is 255 and g is floor(255·h/50) |
| HealthBar.HealthColorSamples | xIR13ND.js:603-610 | health 100, 50, 0 and 75 colour as (0,255), (255,255), (255,0) and (127,255); values outside [0,100] colour like the nearest bound |
| HealthBar.HealthColorMonotone | xIR13ND.js:603-610 | more health never means more red or less green |
| HealthBar.Bar | xIR13ND.js:596-620 | track, fill and outline stand 2 px left of the box and are 4 px wide; track and outline span the box height; the fill ends at the bottom, lies within the box height and is proportional to health; it is coloured by the ramp; the track is `rgba(50, 50, 50, 0.8)` and the outline is black at width 1 |
| BoxStyles.BoxFill | xIR13ND.js:292-295 | one fill covering the box exactly when the fill flag is on |
| BoxStyles.OutlineBox | xIR13ND.js:291-301 | the optional fill, then two strokes of the box rectangle: a wider black one, then one in the box colour |
| BoxStyles.CornerSize | xIR13ND.js:386 | the bracket size is at most 15 and at most 15% of the width and of the height, and equals one of the three |
| BoxStyles.CornerLines | xIR13ND.js:432-447 | four L-shaped paths, one at each corner clockwise from the top left, each running `size` along both edges from its corner |
| BoxStyles.CornerLinesInside | xIR13ND.js:432-447 | arms no longer than the box's sides stay inside the box |
| BoxStyles.BracketsApart | xIR13ND.js:386 | for a box of positive extent the size is positive and the two brackets on each side never meet |
| BoxStyles.Corners | xIR13ND.js:420-430 | a wider pass in the box colour at alpha 0.3 with arms one pixel longer, then a pass in the box colour |
| BoxStyles.CornerBox | xIR13ND.js:385-399 | the optional fill, then the same two `drawCorners` passes twice: brackets one pixel longer in the box colour at alpha 0.3 and width 4, then brackets of the corner size in the box colour at width 2 |
| BoxStyles.CornerBoxHasNoBlackOutline | xIR13ND.js:393-399 | the black stroke style the corner style sets is overridden, so nothing is painted black and the second pass repeats the first |
| BoxStyles.CornerBoxPasses | xIR13ND.js:385-399 | all four passes after the fill are bracket strokes, and none of them is black unless the box colour itself is `#000` |
| BoxStyles.RingAt | xIR13ND.js:336-341 | ring i lies i fifteenths of the way out to the full spread; its alpha is within [0, 0.15) and its width within (2, 6] |
| BoxStyles.RingOrder | xIR13ND.js:336-341 | a higher loop index gives a more transparent, wider ring that lies no further in |
| BoxStyles.GlowRingsEnds | xIR13ND.js:332-351 | the first ring sits at the full spread, invisible (alpha 0) and 6 wide; the last sits at a fifteenth of the spread |
| BoxStyles.GlowRingsOrder | xIR13ND.js:335-351 | each ring drawn is more opaque, thinner and no further out than the one before |
| BoxStyles.RingCommand | xIR13ND.js:340-350 | a rounded rectangle grown by the spread on every side, with radius half the spread, in the box colour at the ring's alpha and width |
| BoxStyles.GlowGradient | xIR13ND.js:309-322 | a radial gradient with radii 0.3 and 0.8 of the shorter side; four stops in the box colour, with offsets rising from 0 to 1 and alphas falling to 0 |
| BoxStyles.CornerSquare | xIR13ND.js:365-371 | a 6×6 square centred on its corner |
| BoxStyles.Halo | xIR13ND.js:324-330 | the gradient fill reaches 30% of the box's size beyond each side, and the gradient is centred on it |
| BoxStyles.GlowFrame | xIR13ND.js:353-383 | the frame strokes the box itself in the box colour, puts a square on each corner clockwise from the top left, and ends with a pulsing stroke whose alpha is within [0.1, 0.2] |
| BoxStyles.GlowBox | xIR13ND.js:303-383 | once the gradient is built: the optional fill first, then 24 glow commands |
| BoxStyles.GlowBoxHalo | xIR13ND.js:309-330 | the command right after the fill is the gradient halo, centred on the box |
| BoxStyles.GlowBoxRings | xIR13ND.js:332-351 | after the halo, stroke k is the ring of loop index 15-k, from the outermost ring inwards |
| BoxStyles.GlowBoxFrame | xIR13ND.js:357-371 | in the glow style, the box-colour stroke covers the box, and the four corner squares sit on its corners |
| BoxStyles.GlowBoxPulse | xIR13ND.js:373-383 | the glow style's last stroke pulses between alpha 0.1 and 0.2 |
| BoxStyles.DrawBox | xIR13ND.js:285-404 | an unknown style draws nothing; style 0 strokes the box black and then in the box colour; style 1 draws the gradient halo right after the fill, 24 glow commands in all, unless the shorter side `Math.min(width, height)` is negative, where `createRadialGradient` throws and only the fill is drawn; style 2 draws four bracket passes, none black unless the box colour is `#000`; style 3 is the wireframe and draws nothing exactly when a corner fails to project; with the fill flag, a flat style's first command is the fill covering the box |
| Wireframe.Corners3D | xIR13ND.js:653-662 | eight corners, each inside a non-empty box |
| Wireframe.CornerCoordinates | xIR13ND.js:653-662 | corner i takes, on each axis, the max or the min bound as the corner-order table says |
| Wireframe.SolidCorners | xIR13ND.js:653-662 | in a box of positive extent, two corners differ on as many coordinates as their table entries differ on axes; adjacent corners differ on exactly one; different indices give different points |
| Wireframe.CornerOrderLayout | xIR13ND.js:653-662 | the eight corners are distinct; the first four walk round the bottom face; each of the last four sits straight above its counterpart |
| Wireframe.EdgesAreCubeEdges | xIR13ND.js:670-674 | every listed edge joins corners that differ on exactly one axis, and no edge is listed twice in either direction |
| Wireframe.EdgesComplete | xIR13ND.js:670-674 | two corners differ on exactly one axis exactly when the table lists them as an edge |
| Wireframe.EveryCornerHasDegreeThree | xIR13ND.js:670-674 | every corner ends exactly three listed edges |
| Wireframe.FacesAreCubeFaces | xIR13ND.js:676-738 | each face quad's four corners share one bound on one axis, and walking the quad follows four cube edges |
| Wireframe.FacesDistinct | xIR13ND.js:676-738 | the six quads are six different faces |
| Wireframe.FaceCornersOnBoxFace | xIR13ND.js:676-738 | every corner of face quad f lies on one face of the box, the same for all four corners |
| Wireframe.ProjectCorners | xIR13ND.js:664-666 | corner i fails to project exactly when the camera puts it beyond depth 1 |
| Wireframe.EdgePassCoversCube | xIR13ND.js:740-761 | each stroke pass joins every pair of corners one cube edge apart |
| Wireframe.Draw3DBox | xIR13ND.js:645-761 | nothing at all exactly when some corner fails to project; otherwise 24 strokes, plus 6 fills when filled |
| Wireframe.WireframeLayout | xIR13ND.js:676-761 | the fills come first, then each edge in black (width 3), then each edge in the box colour (width 2) |
| Wireframe.WireframeFaces | xIR13ND.js:676-738 | when filled, fill f goes through the projected corners of face f, in the fill colour at alpha 0.15 |
| Wireframe.WireframeStrokesCubeEdges | xIR13ND.js:740-761 | every one of the 24 strokes joins the projections of two corners one cube edge apart |
| Wireframe.WireframeCoversCube | xIR13ND.js:740-761 | conversely, every cube edge is stroked in the black pass of a drawn wireframe |
| Skeleton.JointPosition | xIR13ND.js:454-477 | each joint sits where its placement table entry says: a fraction of the width across from the centre, of the height up from the floor and of the depth forward from the centre |
| Skeleton.PlacementBounds | xIR13ND.js:454-477 | every placement is at most half the width or depth from the centre, and between floor and top |
| Skeleton.JointsInsideBox | xIR13ND.js:454-477 | every joint of a non-empty box lies inside the box |
| Skeleton.Mirror | xIR13ND.js:461-477 | a left joint and its right partner have opposite across-fractions and equal height and depth |
| Skeleton.MirrorSymmetric | xIR13ND.js:461-477 | mirroring twice is the identity; mirrored joints are reflected about the box's centre line |
| Skeleton.BonesFormTree | xIR13ND.js:508-529 | the 17 bones form a tree hanging from the head and are listed parent before child |
| Skeleton.BoneEndsDistinct | xIR13ND.js:508-529 | no two bones end at the same joint |
| Skeleton.BonesReachEveryJoint | xIR13ND.js:508-529 | every joint but the head ends some bone |
| Skeleton.DrawnFrom | xIR13ND.js:508-529 | a bone is listed exactly when both of its joints project, in ascending order, so at most once |
| Skeleton.SkeletonStrokes | xIR13ND.js:505-555 | the same bones are drawn in both passes, each from its first joint's screen point to its second's: black at width 3, then the skeleton colour at width 1.5 |
| Skeleton.DrawSkeleton | xIR13ND.js:449-556 | bone k is stroked exactly when neither of its joints lies beyond depth 1, so at most 34 lines; the strokes are the two passes of `SkeletonStrokes` over the joints' projections, each bone from its first joint's screen point to its second's |
| Skeleton.AllBonesDrawn | xIR13ND.js:505-555 | when every joint projects, all 17 bones are drawn in order in both passes |
| Labels.TracerOrigin | xIR13ND.js:566-579 | start 2 is the mouse; every other value starts on the canvas's vertical centre line, within its height |
| Labels.TracerOrigins | xIR13ND.js:566-579 | 0 is the bottom centre, 1 the top centre, 2 the mouse, anything else the canvas centre |
| Labels.Tracer | xIR13ND.js:565-594 | two strokes of the same segment, from the origin to the target: black and wider, then in the tracer colour |
| Labels.OutlinedText | xIR13ND.js:626-630 | the same text, place and size, stroked in black then filled in the given colour |
| Labels.NameLabel | xIR13ND.js:622-631 | "Model", centred over the box 10·scale above its top, in a 14·scale font and the name colour; a black outline, then the same text filled at the same place and size |
| Labels.DistanceLabel | xIR13ND.js:633-643 | the label reads back as the distance; it is centred 20·scale below the box, in a 12·scale font and the distance colour; a black outline, then the same text filled at the same place and size |
| Labels.NatText | xIR13ND.js:640 | a whole number prints as decimal digits with no leading zero |
| Labels.DistanceText | xIR13ND.js:640 | the label is `[` … `m]` |
| Labels.NatRoundTrip | xIR13ND.js:640 | reading printed digits gives back the number |
| Labels.IntRoundTrip | xIR13ND.js:640 | the same for a signed integer |
| Labels.DistanceRoundTrip | xIR13ND.js:640 | reading a printed label gives back its distance |
| Labels.DistanceLabelsInjective | xIR13ND.js:640 | different distances get different labels |
| Labels.DistanceSamples | xIR13ND.js:634-640 | distances 5 and 12 print as `[5m]` and `[12m]` |
| Overlay.Rank | xIR13ND.js:262-268 | each layer has one position in the drawing order |
| Overlay.EnabledFlag | xIR13ND.js:262-268 | each layer is switched by the option flag tested at its place in the drawing order |
| Overlay.Anchors | xIR13ND.js:243-248 | the four anchors lie on the top, bottom, left and right faces, on the box's centre lines and at its centre depth, and inside a non-empty box |
| Overlay.Projections | xIR13ND.js:240-250 | the centre or an anchor fails to project exactly when the camera puts it beyond depth 1 |
| Overlay.Measure | xIR13ND.js:240-260 | measured exactly when the centre and all four anchors project; the box is centred on the projected centre and is as wide as the side anchors are apart; it spans the top anchor to the bottom anchor, and the scale is height/100 |
| Overlay.Content | xIR13ND.js:262-268 | the tracer ends at the projected centre; an unknown box type draws nothing, and a throwing glow style leaves only the fill; the skeleton draws two lines per drawn bone; the bar's three rectangles end a fixed gap left of the box; the name sits 10·scale above the top; the distance sits 20·scale below the bottom and reads back as the distance; the hat layer is one opaque command recording the arguments `drawESP` passes |
| Overlay.ContentBones | xIR13ND.js:264 | the skeleton layer strokes every drawn bone between its joints' screen points, black at width 3 and then in the skeleton colour at width 1.5 |
| Overlay.Layers | xIR13ND.js:262-268 | every layer drawn is enabled and holds its routine's commands, and layers come strictly in drawing order |
| Overlay.LayersComplete | xIR13ND.js:262-268 | no enabled layer is skipped |
| Overlay.DrawEsp | xIR13ND.js:234-270 | the canvas is always cleared first; any layer implies a present, measured subject; layers are enabled and strictly ordered |
| Overlay.LayerPresence | xIR13ND.js:262-268 | for a measured subject, a layer appears exactly when its option is on and the frame has not stopped before it, and then it holds what its routine draws |
| Overlay.Reached | xIR13ND.js:262-268 | a frame gets through all seven layer positions unless the box layer is on and `drawBox` throws, and then it stops after the box layer |
| Overlay.GlowAbort | xIR13ND.js:256-312 | the frame stops early exactly when the box layer is on in the glow style and the top anchor projects below the bottom one; the box layer then holds only the optional fill, and no later layer is drawn |
| Overlay.BailOut | xIR13ND.js:242-250 | a single failed projection among the centre and the four anchors leaves only the clear, even for layers that need only the centre |
| Overlay.DefaultLayers | xIR13ND.js:262-268 | with the default options the frame draws tracer, box, skeleton, health, name and distance, in that order, and no hat |
| Overlay.LayerGeometry | xIR13ND.js:252-262 | the tracer ends at the projected centre, the health bar stands just left of the box, and the centre lies between the box's sides |
| Overlay.AnimationFrame | xIR13ND.js:184-204 | a frame advances the oscillator first, keeps it valid, and then draws with the new health value |
| Overlay.AnimatedBar | xIR13ND.js:596-615 | after any tick from a valid state, the bar's fill lies within the box height, in proportion to the new health |

## Left out

- The three.js scene, loading, lights, grid, rendering and the camera controls (lines 42-182, 193-202) are external library calls and I/O.
- `vector.project(camera)` is an opaque library call. The camera is a parameter mapping world points to device coordinates.
- The glow pulse reads `Date.now()` and `Math.sin`. It is the parameter `pulse`, and only its range [0, 1] is used.
- `Math.random() < 0.02` is a coin parameter. Its probability is not modelled.
- The distance label's `distanceTo` square root and `Math.floor` are done by the host. The label takes the floored integer.
- The Chinese-hat geometry (`drawChineseHat`, lines 763-843) is left out because it uses trigonometry. The hat layer is one opaque `Hat` command that records the arguments `drawESP` passes. `drawChineseHat` never reads them: it projects its own points above the head. It also draws nothing unless more than one top point and more than one brim point project, so a real frame may have no hat where the model has a `Hat` command.
- `drawRoundedRect` curves, fonts, text alignment and pixel output are left out. Commands record the shapes, paints and widths the canvas receives.
- Number-to-string formatting of `rgba(…)` and `rgb(…)` paints is left out. Paints keep the numeric channels and alpha.
- An exception is modelled only where it cuts a frame short: `createRadialGradient` rejecting a negative radius (`BoxStyles.GradientThrows`, `Overlay.Reached`). The error report on the console is left out. The health tick and the next frame's request run before `drawESP`, so they are unaffected.
- Floating-point rounding is left out. All arithmetic is on exact reals, so `Math.floor` is `.Floor` on an exact value.
- The resize, mouse, touch and gizmo handlers and the UI bindings (lines 845-972) are event glue. The option record is a plain value; the colour pickers are represented only by the well-formed `#rrggbb` strings `Colors.FormatHex` produces.
- Overlay.AnimatedBar: states the fill for the health value the tick produces against `HealthBar.Bar` directly; the bar and the frame are connected separately by `Overlay.LayerPresence`.
- Skeleton.SkeletonStrokes: `drawSkeleton` also receives the screen position, scale, top and bottom, and never reads them, so the model does not take them.
- JavaScript strings are sequences of UTF-16 code units; the model uses sequences of Unicode characters, which agree on the ASCII colour strings and labels the overlay handles.

=== FILE: box.dfy ===
/** The four box styles of `drawBox`: a plain double outline (0), a glow
    (1), corner brackets (2) and the 3D wireframe (3). All flat styles
    work on the screen rectangle `left, top, right, bottom`. */
module BoxStyles {
  import opened Reals
  import opened Geometry
  import opened Draw
  import Colors
  import Wireframe
  import Seqs
  import opened Options

  /** The alpha of the optional box fill. */
  const FillAlpha: real := 0.25

  /** `glowSteps`: the number of glow rings. */
  const GlowSteps: nat := 15

  /** Half the side of the glow style's corner squares. */
  const CornerGlowSize: real := 3.0

  /** The longest arm a corner bracket gets. */
  const MaxCornerSize: real := 15.0

  /** The screen rectangle of the box. */
  datatype Rect = Rect(left: real, top: real, right: real, bottom: real) {
    function Width(): real { right - left }
    function Height(): real { bottom - top }
  }

  /** A `StrokeRect` or `FillRect` that covers exactly `r`. */
  predicate Covers(c: Command, r: Rect) {
    (c.FillRect? || c.StrokeRect?) && c.x == r.left && c.y == r.top
    && c.x + c.w == r.right && c.y + c.h == r.bottom
  }

  /** The translucent fill the flat styles lay down first when
      `boxFilled` is set. */
  function BoxFill(o: EspOptions, r: Rect): (cmds: seq<Command>)
    ensures |cmds| == (if o.boxFilled then 1 else 0)
    ensures o.boxFilled ==> Covers(cmds[0], r) && cmds[0].FillRect?
                            && cmds[0].paint == Rgba(Colors.HexToRgba(o.boxFillColor, FillAlpha))
  {
    if o.boxFilled then [FillRect(r.left, r.top, r.Width(), r.Height(), Rgba(Colors.HexToRgba(o.boxFillColor, FillAlpha)))]
    else []
  }

  // ---------------------------------------------------------------- style 0

  /** Style 0: a wide black stroke under a narrower stroke in the box
      colour, both on the box rectangle, so a dark rim shows on each side
      of the coloured line. */
  function OutlineBox(o: EspOptions, r: Rect): (cmds: seq<Command>)
    ensures |cmds| == |BoxFill(o, r)| + 2
    ensures cmds[..|cmds| - 2] == BoxFill(o, r)
    ensures forall i :: |cmds| - 2 <= i < |cmds| ==> cmds[i].StrokeRect? && Covers(cmds[i], r)
    ensures cmds[|cmds| - 2].paint == Black && cmds[|cmds| - 1].paint == Css(o.boxColor)
    ensures cmds[|cmds| - 2].lineWidth > cmds[|cmds| - 1].lineWidth
  {
    BoxFill(o, r) + [
      StrokeRect(r.left, r.top, r.Width(), r.Height(), Black, 3.5),
      StrokeRect(r.left, r.top, r.Width(), r.Height(), Css(o.boxColor), 2.0)]
  }

  // ---------------------------------------------------------------- style 2

  /** `cornerSize`: 15 pixels, or 15% of the box's width or height when
      that is smaller. */
  function CornerSize(w: real, h: real): (s: real)
    ensures s <= MaxCornerSize && s <= 0.15 * w && s <= 0.15 * h
    ensures s == MaxCornerSize || s == 0.15 * w || s == 0.15 * h
  {
    Min(Min(MaxCornerSize, w * 0.15), h * 0.15)
  }

  /** A corner bracket: three points whose middle one is `corner`, with
      one arm of length `size` along the horizontal edge (direction `dx`)
      and one along the vertical edge (direction `dy`). */
  predicate Bracket(path: seq<Point>, corner: Point, dx: real, dy: real, size: real) {
    var horizontal := Point(corner.x + dx * size, corner.y);
    var vertical := Point(corner.x, corner.y + dy * size);
    |path| == 3 && path[1] == corner
    && ((path[0] == horizontal && path[2] == vertical) || (path[0] == vertical && path[2] == horizontal))
  }

  /** `drawCornerLines`: one path of four brackets, clockwise from the
      top-left corner, every arm pointing into the box. */
  function CornerLines(r: Rect, size: real): (paths: seq<seq<Point>>)
    ensures |paths| == 4
    ensures Bracket(paths[0], Point(r.left, r.top), 1.0, 1.0, size)
    ensures Bracket(paths[1], Point(r.right, r.top), -1.0, 1.0, size)
    ensures Bracket(paths[2], Point(r.right, r.bottom), -1.0, -1.0, size)
    ensures Bracket(paths[3], Point(r.left, r.bottom), 1.0, -1.0, size)
  {
    var l, t, rt, b := r.left, r.top, r.right, r.bottom;
    [ [Point(l, t + size), Point(l, t), Point(l + size, t)],
      [Point(rt - size, t), Point(rt, t), Point(rt, t + size)],
      [Point(rt, b - size), Point(rt, b), Point(rt - size, b)],
      [Point(l + size, b), Point(l, b), Point(l, b - size)] ]
  }

  predicate InRect(p: Point, r: Rect) {
    r.left <= p.x <= r.right && r.top <= p.y <= r.bottom
  }

  /** Arms no longer than the box stay inside it. */
  lemma CornerLinesInside(r: Rect, size: real)
    requires 0.0 <= size <= r.Width() && size <= r.Height()
    ensures var paths := CornerLines(r, size);
            forall k, j :: 0 <= k < 4 && 0 <= j < 3 ==> InRect(paths[k][j], r)
  {
  }

  /** For a box with positive extent the computed corner size is positive
      and the two brackets along each edge never meet: at most 30% of each
      side is covered by arms. */
  lemma BracketsApart(r: Rect)
    requires r.Width() > 0.0 && r.Height() > 0.0
    ensures var s := CornerSize(r.Width(), r.Height());
            && 0.0 < s
            && r.left + s < r.right - s
            && r.top + s < r.bottom - s
  {
  }

  /** `drawCorners`: a translucent, wider pass with arms one pixel longer,
      then the solid pass in the box colour. */
  function Corners(o: EspOptions, r: Rect, size: real): (cmds: seq<Command>)
    ensures |cmds| == 2 && cmds[0].StrokePolylines? && cmds[1].StrokePolylines?
    ensures cmds[0].polylines == CornerLines(r, size + 1.0) && cmds[1].polylines == CornerLines(r, size)
    ensures cmds[0].paint == Rgba(Colors.HexToRgba(o.boxColor, 0.3)) && cmds[1].paint == Css(o.boxColor)
    ensures cmds[0].lineWidth > cmds[1].lineWidth
  {
    [ StrokePolylines(CornerLines(r, size + 1.0), Rgba(Colors.HexToRgba(o.boxColor, 0.3)), 4.0),
      StrokePolylines(CornerLines(r, size), Css(o.boxColor), 2.0) ]
  }

  /** Style 2: the optional fill, then `drawCorners` twice. The black
      stroke style and width the code sets before the first call are
      overwritten inside `drawCorners`, so both calls draw the same thing. */
  function CornerBox(o: EspOptions, r: Rect): (cmds: seq<Command>)
    ensures |cmds| == |BoxFill(o, r)| + 4
    ensures cmds[..|BoxFill(o, r)|] == BoxFill(o, r)
    // translucent passes: brackets with arms one pixel longer than the corner size
    ensures var n, s := |BoxFill(o, r)|, CornerSize(r.Width(), r.Height());
            cmds[n] == cmds[n + 2] == StrokePolylines(CornerLines(r, s + 1.0), Rgba(Colors.HexToRgba(o.boxColor, 0.3)), 4.0)
    // solid passes: brackets with arms of the corner size
    ensures var n, s := |BoxFill(o, r)|, CornerSize(r.Width(), r.Height());
            cmds[n + 1] == cmds[n + 3] == StrokePolylines(CornerLines(r, s), Css(o.boxColor), 2.0)
  {
    var size := CornerSize(r.Width(), r.Height());
    BoxFill(o, r) + Corners(o, r, size) + Corners(o, r, size)
  }

  /** The corner style never draws the black outline its code asks for:
      no command is painted black, and the second `drawCorners` repeats
      the first. */
  lemma CornerBoxHasNoBlackOutline(o: EspOptions, r: Rect)
    requires o.boxColor != "#000"
    ensures var cmds := CornerBox(o, r);
            var n := |BoxFill(o, r)|;
            && (forall i :: 0 <= i < |cmds| ==> cmds[i].paint != Black)
            && cmds[n..n + 2] == cmds[n + 2..]
  {
  }

  /** The four passes after the fill are bracket strokes, none of them
      black unless the box colour itself is `#000`. */
  lemma CornerBoxPasses(o: EspOptions, r: Rect)
    ensures var cmds, n := CornerBox(o, r), |BoxFill(o, r)|;
            forall k :: n <= k < n + 4 ==>
              cmds[k].StrokePolylines? && (o.boxColor != "#000" ==> cmds[k].paint != Black)
  {
    var cmds, n := CornerBox(o, r), |BoxFill(o, r)|;
    assert cmds[n] == cmds[n + 2] && cmds[n + 1] == cmds[n + 3];
    assert cmds[n].paint.Rgba? && cmds[n + 1].paint == Css(o.boxColor);
  }

  // ---------------------------------------------------------------- style 1

  /** One glow ring: how far it is pushed out from the box, its alpha and
      its line width. */
  datatype GlowRing = GlowRing(spread: real, alpha: real, lineWidth: real)

  /** The ring for loop index `i` (15 down to 1) with `progress = i/15`:
      it lies `i` fifteenths of the way out to the full spread, is
      translucent (alpha below 0.15, never negative), and is wider than
      the 2-pixel base line but at most 6 pixels wide. */
  function RingAt(i: nat, maxSpread: real): (g: GlowRing)
    requires 1 <= i <= GlowSteps
    ensures g.spread * 15.0 == maxSpread * i as real
    ensures 0.0 <= g.alpha < 0.15 && 2.0 < g.lineWidth <= 6.0
  {
    var p := i as real / GlowSteps as real;
    var a := 1.0 - p;
    assert 0.0 <= a < 1.0;
    assert 0.0 <= a * a < 1.0 by {
      assert a * a <= a * 1.0;
    }
    assert 0.15 * a * a == 0.15 * (a * a);
    GlowRing(maxSpread * p, 0.15 * a * a, 2.0 + 4.0 * p)
  }

  /** The rings of the glow loop, from loop index `i` down to 1. */
  function GlowRings(i: nat, maxSpread: real): (rs: seq<GlowRing>)
    requires i <= GlowSteps
    ensures |rs| == i
  {
    seq(i, j requires 0 <= j < i => RingAt(i - j, maxSpread))
  }

  /** A later loop index (an inner ring) is more opaque, thinner and, for
      a non-negative spread, no further out. */
  lemma RingOrder(i: nat, j: nat, maxSpread: real)
    requires 1 <= i < j <= GlowSteps
    ensures RingAt(j, maxSpread).alpha < RingAt(i, maxSpread).alpha
    ensures RingAt(i, maxSpread).lineWidth < RingAt(j, maxSpread).lineWidth
    ensures maxSpread >= 0.0 ==> RingAt(i, maxSpread).spread <= RingAt(j, maxSpread).spread
  {
    var p, q := i as real / 15.0, j as real / 15.0;
    assert 0.0 < p < q <= 1.0;
    var a, b := 1.0 - q, 1.0 - p;
    assert 0.0 <= a < b;
    assert a * a < b * b by {
      assert a * a <= a * b;
      assert a * b < b * b;
    }
    assert 0.15 * a * a < 0.15 * b * b;
    if maxSpread >= 0.0 {
      assert maxSpread * q - maxSpread * p == maxSpread * (q - p);
    }
  }

  /** The ends of the glow: the outermost ring sits at the full spread
      with width 6 and alpha 0, so it is invisible; the innermost ring
      hugs the box at a fifteenth of the spread. */
  lemma GlowRingsEnds(maxSpread: real)
    ensures var rs := GlowRings(GlowSteps, maxSpread);
            && |rs| == 15
            && rs[0] == GlowRing(maxSpread, 0.0, 6.0)
            && rs[14].spread == maxSpread / 15.0
  {
    var rs := GlowRings(GlowSteps, maxSpread);
    assert rs[0] == RingAt(15, maxSpread);
    assert rs[14] == RingAt(1, maxSpread);
  }

  /** Going inwards each ring is strictly more opaque and thinner than
      the one before and, for a non-negative spread, no further out. */
  lemma GlowRingsOrder(maxSpread: real)
    ensures var rs := GlowRings(GlowSteps, maxSpread);
            && (forall j, k :: 0 <= j < k < 15 ==> rs[j].alpha < rs[k].alpha)
            && (forall j, k :: 0 <= j < k < 15 ==> rs[k].lineWidth < rs[j].lineWidth)
            && (maxSpread >= 0.0 ==> forall j, k :: 0 <= j < k < 15 ==> rs[k].spread <= rs[j].spread)
  {
    forall j, k | 0 <= j < k < 15
      ensures GlowRings(GlowSteps, maxSpread)[j].alpha < GlowRings(GlowSteps, maxSpread)[k].alpha
      ensures GlowRings(GlowSteps, maxSpread)[k].lineWidth < GlowRings(GlowSteps, maxSpread)[j].lineWidth
      ensures maxSpread >= 0.0 ==>
                GlowRings(GlowSteps, maxSpread)[k].spread <= GlowRings(GlowSteps, maxSpread)[j].spread
    {
      GlowRingPair(maxSpread, j, k);
    }
  }

  lemma GlowRingPair(maxSpread: real, j: nat, k: nat)
    requires j < k < 15
    ensures var rs := GlowRings(GlowSteps, maxSpread);
            && rs[j].alpha < rs[k].alpha && rs[k].lineWidth < rs[j].lineWidth
            && (maxSpread >= 0.0 ==> rs[k].spread <= rs[j].spread)
  {
    var rs := GlowRings(GlowSteps, maxSpread);
    assert rs[j] == RingAt(15 - j, maxSpread) && rs[k] == RingAt(15 - k, maxSpread);
    RingOrder(15 - k, 15 - j, maxSpread);
  }

  /** One ring as a rounded rectangle: the box grown by `spread` on every
      side with corner radius half the spread. */
  function RingCommand(g: GlowRing, o: EspOptions, r: Rect): (c: Command)
    ensures c.StrokeRoundedRect? && c.radius == g.spread * 0.5
    ensures c.x == r.left - g.spread && c.x + c.w == r.right + g.spread
    ensures c.y == r.top - g.spread && c.y + c.h == r.bottom + g.spread
    ensures c.paint == Rgba(Colors.HexToRgba(o.boxColor, g.alpha)) && c.lineWidth == g.lineWidth
  {
    StrokeRoundedRect(r.left - g.spread, r.top - g.spread, r.Width() + g.spread * 2.0,
                      r.Height() + g.spread * 2.0, g.spread * 0.5,
                      Rgba(Colors.HexToRgba(o.boxColor, g.alpha)), g.lineWidth)
  }

  /** The radial gradient behind the glow: full box colour fading out,
      stop by stop, to transparent. */
  function GlowGradient(o: EspOptions, center: Point, m: real): (p: Paint)
    ensures p.RadialGradient? && p.center == center
    ensures p.innerRadius == m * 0.3 && p.outerRadius == m * 0.8
    ensures |p.stops| == 4 && p.stops[0].offset == 0.0 && p.stops[3].offset == 1.0
    ensures forall i, j :: 0 <= i < j < 4 ==>
              p.stops[i].offset < p.stops[j].offset && p.stops[j].color.alpha < p.stops[i].color.alpha
    ensures forall i :: 0 <= i < 4 ==> p.stops[i].color == Colors.HexToRgba(o.boxColor, p.stops[i].color.alpha)
    ensures p.stops[3].color.alpha == 0.0
  {
    var c := (a: real) => Colors.HexToRgba(o.boxColor, a);
    RadialGradient(center, m * 0.3, m * 0.8,
                   [Stop(0.0, c(0.8)), Stop(0.3, c(0.4)), Stop(0.6, c(0.2)), Stop(1.0, c(0.0))])
  }

  /** A small filled square centred on a corner of the box. */
  function CornerSquare(corner: Point, paint: Paint): (c: Command)
    ensures c.FillRect? && c.w == 2.0 * CornerGlowSize && c.h == 2.0 * CornerGlowSize
    ensures c.x + c.w / 2.0 == corner.x && c.y + c.h / 2.0 == corner.y
  {
    FillRect(corner.x - CornerGlowSize, corner.y - CornerGlowSize,
             CornerGlowSize * 2.0, CornerGlowSize * 2.0, paint)
  }

  /** The gradient halo: the box grown by 30% of its size on every side,
      painted with the fading gradient centred on the box. */
  function Halo(o: EspOptions, r: Rect): (c: Command)
    ensures c.FillRect? && c.paint.RadialGradient?
    ensures c.x == r.left - 0.3 * r.Width() && c.x + c.w == r.right + 0.3 * r.Width()
    ensures c.y == r.top - 0.3 * r.Height() && c.y + c.h == r.bottom + 0.3 * r.Height()
    ensures c.paint.center == Point(c.x + c.w / 2.0, c.y + c.h / 2.0)
  {
    var w, h := r.Width(), r.Height();
    var center := Point(r.left + w / 2.0, r.top + h / 2.0);
    FillRect(r.left - w * 0.3, r.top - h * 0.3, w * 1.6, h * 1.6, GlowGradient(o, center, Min(w, h)))
  }

  /** One stroke per ring, in ring order. */
  function RingStrokes(rs: seq<GlowRing>, o: EspOptions, r: Rect): (cmds: seq<Command>)
    ensures |cmds| == |rs|
  {
    seq(|rs|, k requires 0 <= k < |rs| => RingCommand(rs[k], o, r))
  }

  /** What follows the rings: a dark frame one pixel outside the box, the
      box outline, an inner line two pixels inside, a square on each
      corner clockwise from the top left, and the pulsing ring. */
  function GlowFrame(o: EspOptions, r: Rect, maxSpread: real, pulse: real): (cmds: seq<Command>)
    ensures |cmds| == 8
    ensures Covers(cmds[1], r) && cmds[1].paint == Css(o.boxColor)
    ensures forall k :: 3 <= k < 7 ==> cmds[k].FillRect?
    ensures cmds[3].x + 3.0 == r.left && cmds[3].y + 3.0 == r.top
    ensures cmds[4].x + 3.0 == r.right && cmds[4].y + 3.0 == r.top
    ensures cmds[5].x + 3.0 == r.right && cmds[5].y + 3.0 == r.bottom
    ensures cmds[6].x + 3.0 == r.left && cmds[6].y + 3.0 == r.bottom
    ensures cmds[7].StrokeRect? && cmds[7].paint.Rgba?
    ensures 0.0 <= pulse <= 1.0 ==> 0.1 <= cmds[7].paint.rgba.alpha <= 0.2
  {
    var w, h := r.Width(), r.Height();
    var corner := Rgba(Colors.HexToRgba(o.boxColor, 0.9));
    [ StrokeRect(r.left - 1.0, r.top - 1.0, w + 2.0, h + 2.0, Css("rgba(0, 0, 0, 0.8)"), 4.0),
      StrokeRect(r.left, r.top, w, h, Css(o.boxColor), 2.5),
      StrokeRect(r.left + 2.0, r.top + 2.0, w - 4.0, h - 4.0, Rgba(Colors.HexToRgba(o.boxColor, 0.6)), 1.0),
      CornerSquare(Point(r.left, r.top), corner),
      CornerSquare(Point(r.right, r.top), corner),
      CornerSquare(Point(r.right, r.bottom), corner),
      CornerSquare(Point(r.left, r.bottom), corner),
      StrokeRect(r.left - maxSpread * 0.2, r.top - maxSpread * 0.2, w + maxSpread * 0.4, h + maxSpread * 0.4,
                 Rgba(Colors.HexToRgba(o.boxColor, 0.1 + pulse * 0.1)), 1.0) ]
  }

  /** `createRadialGradient` rejects a negative radius with an
      `IndexSizeError`. The glow's radii are 0.3 and 0.8 times the
      shorter side, and `drawBox` takes the height as `bottom - top`
      without `Math.abs`, so a box whose top lies below its bottom on
      screen makes the glow style throw right after the optional fill. */
  predicate GradientThrows(r: Rect) {
    Min(r.Width(), r.Height()) < 0.0
  }

  /** `drawBox` throws: the glow style on a rectangle the gradient
      rejects. No other style throws. */
  predicate DrawBoxThrows(o: EspOptions, r: Rect) {
    o.boxType == 1 && GradientThrows(r)
  }

  /** Style 1 once the gradient is built, in drawing order: the optional
      fill, the halo, the 15 glow rings and the frame. `pulse` is the
      host's `(sin(t) + 1) / 2`. `DrawBox` stops after the fill when
      the gradient cannot be built. */
  function GlowBox(o: EspOptions, r: Rect, pulse: real): (cmds: seq<Command>)
    ensures |cmds| == |BoxFill(o, r)| + 24
    ensures o.boxFilled ==> cmds[0] == BoxFill(o, r)[0]
  {
    var maxSpread := Min(r.Width(), r.Height()) * 0.4;
    GlowLayout(BoxFill(o, r), Halo(o, r), RingStrokes(GlowRings(GlowSteps, maxSpread), o, r),
               GlowFrame(o, r, maxSpread, pulse))
  }

  /** The order of the parts of the glow style. */
  function GlowLayout(fill: seq<Command>, halo: Command, rings: seq<Command>, frame: seq<Command>)
    : (cmds: seq<Command>)
    ensures |cmds| == |fill| + 1 + |rings| + |frame|
  {
    fill + [halo] + rings + frame
  }

  /** Ring stroke `k` of a glow layout. */
  lemma GlowLayoutRing(fill: seq<Command>, halo: Command, rings: seq<Command>, frame: seq<Command>, k: nat)
    requires k < |rings|
    ensures GlowLayout(fill, halo, rings, frame)[|fill| + 1 + k] == rings[k]
  {
    Seqs.InMiddle(fill + [halo], rings, frame, k);
  }

  /** The halo of the glow style, drawn right after the optional fill,
      is centred on the box together with its gradient. */
  lemma GlowBoxHalo(o: EspOptions, r: Rect, pulse: real)
    ensures var cmds := GlowBox(o, r, pulse);
            var n := |BoxFill(o, r)|;
            && cmds[n].FillRect? && cmds[n].paint.RadialGradient?
            && cmds[n].x + cmds[n].w / 2.0 == r.left + r.Width() / 2.0
            && cmds[n].y + cmds[n].h / 2.0 == r.top + r.Height() / 2.0
            && cmds[n].paint.center == Point(r.left + r.Width() / 2.0, r.top + r.Height() / 2.0)
  {
    var cmds := GlowBox(o, r, pulse);
    var n := |BoxFill(o, r)|;
    assert cmds[n] == Halo(o, r);
  }

  /** The glow rings of the glow style, right after the halo: stroke `k`
      draws the ring of loop index `15 - k`, from the outermost ring
      inwards, so it outlines the box grown on every side by that ring's
      spread (see `RingCommand` and `RingAt`). */
  lemma GlowBoxRings(o: EspOptions, r: Rect, pulse: real, k: nat)
    requires k < GlowSteps
    ensures GlowBox(o, r, pulse)[|BoxFill(o, r)| + 1 + k]
            == RingCommand(RingAt(GlowSteps - k, Min(r.Width(), r.Height()) * 0.4), o, r)
  {
    var m := Min(r.Width(), r.Height()) * 0.4;
    var rs := GlowRings(GlowSteps, m);
    GlowLayoutRing(BoxFill(o, r), Halo(o, r), RingStrokes(rs, o, r), GlowFrame(o, r, m, pulse), k);
    RingStrokeAt(rs, o, r, k);
  }

  /** Stroke `k` draws ring `k`. */
  lemma RingStrokeAt(rs: seq<GlowRing>, o: EspOptions, r: Rect, k: nat)
    requires k < |rs|
    ensures RingStrokes(rs, o, r)[k] == RingCommand(rs[k], o, r)
  {
  }

  /** The outline and the corner squares of the glow style: the box
      colour strokes the box rectangle itself, and one square is centred
      on each corner, clockwise from the top left. */
  lemma GlowBoxFrame(o: EspOptions, r: Rect, pulse: real)
    ensures var cmds := GlowBox(o, r, pulse);
            var n := |BoxFill(o, r)|;
            && Covers(cmds[n + 17], r) && cmds[n + 17].paint == Css(o.boxColor)
            && (forall k :: n + 19 <= k < n + 23 ==> cmds[k].FillRect?)
            && cmds[n + 19].x + 3.0 == r.left && cmds[n + 19].y + 3.0 == r.top
            && cmds[n + 20].x + 3.0 == r.right && cmds[n + 20].y + 3.0 == r.top
            && cmds[n + 21].x + 3.0 == r.right && cmds[n + 21].y + 3.0 == r.bottom
            && cmds[n + 22].x + 3.0 == r.left && cmds[n + 22].y + 3.0 == r.bottom
  {
    var m := Min(r.Width(), r.Height()) * 0.4;
    var head, rings := BoxFill(o, r) + [Halo(o, r)], RingStrokes(GlowRings(GlowSteps, m), o, r);
    forall j | j == 1 || 3 <= j < 7 {
      Seqs.InLast(head, rings, GlowFrame(o, r, m, pulse), j);
    }
  }

  /** The last stroke of the glow style pulses between alpha 0.1 and 0.2
      as `pulse` runs over [0, 1]. */
  lemma GlowBoxPulse(o: EspOptions, r: Rect, pulse: real)
    requires 0.0 <= pulse <= 1.0
    ensures var cmds := GlowBox(o, r, pulse);
            var last := cmds[|cmds| - 1];
            && last.StrokeRect? && last.paint.Rgba?
            && 0.1 <= last.paint.rgba.alpha <= 0.2
  {
    var cmds := GlowBox(o, r, pulse);
    assert cmds[|cmds| - 1] == GlowFrame(o, r, Min(r.Width(), r.Height()) * 0.4, pulse)[7];
  }

  // ---------------------------------------------------------------- dispatch

  /** `drawBox`: the style chosen by `boxType`; any other value draws
      nothing. Style 3 ignores the rectangle and projects the subject's
      own box. When the glow style throws (`DrawBoxThrows`), what it drew
      before the throw, the optional fill, stays on the canvas. */
  function DrawBox(o: EspOptions, r: Rect, subject: Box3, camera: Camera, canvas: Canvas,
                   pulse: real): (cmds: seq<Command>)
    ensures !(0 <= o.boxType <= 3) ==> cmds == []
    ensures (o.boxType == 0 || o.boxType == 2 || (o.boxType == 1 && !GradientThrows(r))) ==> |cmds| >= 2
    // style 0: the black rim under the box-colour line, both on the box
    ensures o.boxType == 0 ==>
              var n := |BoxFill(o, r)|;
              && |cmds| == n + 2
              && cmds[n].StrokeRect? && Covers(cmds[n], r) && cmds[n].paint == Black
              && cmds[n + 1].StrokeRect? && Covers(cmds[n + 1], r) && cmds[n + 1].paint == Css(o.boxColor)
    // style 1: the halo, fifteen glow rings and the frame; only the fill
    // when the gradient throws
    ensures o.boxType == 1 && !GradientThrows(r) ==>
              var n := |BoxFill(o, r)|;
              |cmds| == n + 24 && cmds[n].FillRect? && cmds[n].paint.RadialGradient?
    ensures DrawBoxThrows(o, r) ==> |cmds| <= 1 && (o.boxFilled <==> |cmds| == 1)
    // style 2: four bracket passes and no black outline
    ensures o.boxType == 2 ==>
              var n := |BoxFill(o, r)|;
              && |cmds| == n + 4
              && (forall k :: n <= k < n + 4 ==>
                    cmds[k].StrokePolylines? && (o.boxColor != "#000" ==> cmds[k].paint != Black))
    ensures o.boxType == 3 ==>
              cmds == Wireframe.Draw3DBox(subject, camera, canvas, o.boxFilled, o.boxColor, o.boxFillColor)
    ensures o.boxType == 3 ==>
              (cmds == [] <==>
                 exists i :: 0 <= i < 8 && Wireframe.ProjectCorners(subject, camera, canvas)[i].None?)
    // the fill, when there is one, is the first thing drawn in the flat styles
    ensures 0 <= o.boxType <= 2 && o.boxFilled ==> Covers(cmds[0], r) && cmds[0].FillRect?
  {
    if o.boxType == 0 then OutlineBox(o, r)
    else if o.boxType == 1 then
      if GradientThrows(r) then BoxFill(o, r)
      else GlowBoxHalo(o, r, pulse); GlowBox(o, r, pulse)
    else if o.boxType == 2 then
      CornerBoxPasses(o, r);
      CornerBox(o, r)
    else if o.boxType == 3 then
      Wireframe.Draw3DBox(subject, camera, canvas, o.boxFilled, o.boxColor, o.boxFillColor)
    else []
  }
}

=== FILE: colors.dfy ===
/** Colour strings: the `hexToRgba` helper and the JavaScript
    `parseInt(…, 16)` it rests on. A `None` channel stands for `NaN`,
    which is what `parseInt` yields when no hex digit can be read. */
module Colors {
  import opened Nullable

  /** The four values `hexToRgba` interpolates into its `rgba(…)` string. */
  datatype Rgba = Rgba(r: Option<int>, g: Option<int>, b: Option<int>, alpha: real)

  /** The characters JavaScript's `parseInt` skips before the number:
      WhiteSpace and LineTerminator of ECMAScript section 12.2 and 12.3. */
  predicate IsJsWhiteSpace(c: char) {
    || c == '\t' || c == '\n' || c == '\U{B}' || c == '\U{C}' || c == '\r' || c == ' '
    || c == '\U{A0}' || c == '\U{1680}' || ('\U{2000}' <= c <= '\U{200A}')
    || c == '\U{2028}' || c == '\U{2029}' || c == '\U{202F}' || c == '\U{205F}'
    || c == '\U{3000}' || c == '\U{FEFF}'
  }

  predicate IsHexDigit(c: char) {
    ('0' <= c <= '9') || ('a' <= c <= 'f') || ('A' <= c <= 'F')
  }

  function DigitValue(c: char): (v: nat)
    requires IsHexDigit(c)
    ensures v < 16
  {
    if '0' <= c <= '9' then c as int - '0' as int
    else if 'a' <= c <= 'f' then c as int - 'a' as int + 10
    else c as int - 'A' as int + 10
  }

  /** JavaScript `s.slice(start, end)` for non-negative bounds: both are
      clamped to the length and an inverted range gives "". */
  function Slice(s: string, start: nat, end: nat): (r: string)
    ensures |r| <= end - start || start >= end
    ensures start <= end <= |s| ==> r == s[start..end]
    ensures start <= |s| <= end ==> r == s[start..]
    ensures |s| <= start || end <= start ==> r == ""
  {
    var from := if start < |s| then start else |s|;
    var to := if end < |s| then end else |s|;
    if from < to then s[from..to] else ""
  }

  /** Drops the leading white space. */
  function TrimStart(s: string): (r: string)
    ensures |r| <= |s|
  {
    if |s| > 0 && IsJsWhiteSpace(s[0]) then TrimStart(s[1..]) else s
  }

  /** `TrimStart` keeps a suffix; what it drops is all white space, and
      what it keeps does not start with white space: the longest
      white-space prefix goes. */
  lemma {:induction false} TrimStartSkipsWhiteSpace(s: string)
    ensures var r := TrimStart(s);
            && r == s[|s| - |r|..]
            && (forall i :: 0 <= i < |s| - |r| ==> IsJsWhiteSpace(s[i]))
            && (|r| == 0 || !IsJsWhiteSpace(r[0]))
  {
    if |s| > 0 && IsJsWhiteSpace(s[0]) {
      TrimStartSkipsWhiteSpace(s[1..]);
      var r := TrimStart(s);
      forall i | 0 <= i < |s| - |r| ensures IsJsWhiteSpace(s[i]) {
        if i > 0 { assert s[i] == s[1..][i - 1]; }
      }
    }
  }

  /** The length of the run of hex digits at the front of `s`. */
  function DigitRun(s: string): (k: nat)
    ensures k <= |s|
    ensures forall i :: 0 <= i < k ==> IsHexDigit(s[i])
    ensures k < |s| ==> !IsHexDigit(s[k])
  {
    if |s| == 0 || !IsHexDigit(s[0]) then 0 else 1 + DigitRun(s[1..])
  }

  function Pow16(n: nat): (p: nat)
    ensures p >= 1
  {
    if n == 0 then 1 else 16 * Pow16(n - 1)
  }

  predicate AllHexDigits(d: string) {
    forall i :: 0 <= i < |d| ==> IsHexDigit(d[i])
  }

  /** The positional base-16 value of a string of hex digits, most
      significant first. */
  function HexValue(d: string): nat
    requires AllHexDigits(d)
  {
    if |d| == 0 then 0 else DigitValue(d[0]) * Pow16(|d| - 1) + HexValue(d[1..])
  }

  /** The value read so far, 0 before the first digit. */
  function Before(acc: Option<nat>): nat {
    match acc
    case None => 0
    case Some(v) => v
  }

  /** Reads the longest run of hex digits at the front of `s`, most
      significant first, continuing from the value `acc` read so far
      (`None` while no digit has been read). */
  function ReadDigits(s: string, acc: Option<nat>): (r: Option<nat>)
    ensures acc.Some? ==> r.Some?
    ensures |s| > 0 && IsHexDigit(s[0]) ==> r.Some?
  {
    if |s| == 0 || !IsHexDigit(s[0]) then acc
    else
      var before := match acc case None => 0 case Some(v) => v;
      ReadDigits(s[1..], Some(before * 16 + DigitValue(s[0])))
  }

  /** `ReadDigits` reads exactly the leading run of hex digits: with no
      digit it returns what was read before, otherwise that value shifted
      left by the run's length plus the run's positional value. */
  lemma {:induction false} ReadDigitsValue(s: string, acc: Option<nat>)
    ensures var k := DigitRun(s);
            ReadDigits(s, acc)
            == if k == 0 then acc else Some(Before(acc) * Pow16(k) + HexValue(s[..k]))
    decreases |s|
  {
    if |s| > 0 && IsHexDigit(s[0]) {
      var before := Before(acc);
      var next: nat := before * 16 + DigitValue(s[0]);
      var k := DigitRun(s[1..]);
      assert ReadDigits(s, acc) == ReadDigits(s[1..], Some(next));
      ReadDigitsValue(s[1..], Some(next));
      ShiftDigit(s, before, k);
      if k == 0 {
        assert s[..1][1..] == [];
        assert HexValue(s[..1]) == DigitValue(s[0]);
        assert ReadDigits(s, acc) == Some(before * Pow16(1) + HexValue(s[..1]));
      } else {
        assert ReadDigits(s, acc) == Some(next * Pow16(k) + HexValue(s[1..][..k]));
      }
    }
  }

  /** Reading one more digit: the run grows by one, and the value read
      after the first digit, scaled by the rest of the run, is the value
      of the whole run. */
  lemma ShiftDigit(s: string, b: nat, k: nat)
    requires |s| > 0 && IsHexDigit(s[0]) && k == DigitRun(s[1..])
    ensures DigitRun(s) == k + 1
    ensures (b * 16 + DigitValue(s[0])) * Pow16(k) + HexValue(s[1..][..k])
            == b * Pow16(k + 1) + HexValue(s[..k + 1])
  {
    RunOfTail(s);
    var d, p, h := DigitValue(s[0]), Pow16(k), HexValue(s[1..][..k]);
    HexValueCons(s[..k + 1], d, p, h);
    ShiftArith(b, d, p, h, Pow16(k + 1));
  }

  /** The run of `s` is its first digit followed by the run of the tail. */
  lemma RunOfTail(s: string)
    requires |s| > 0 && IsHexDigit(s[0])
    ensures var k := DigitRun(s[1..]);
            && DigitRun(s) == k + 1
            && AllHexDigits(s[..k + 1]) && s[..k + 1][0] == s[0]
            && s[..k + 1][1..] == s[1..][..k]
  {
  }

  lemma ShiftArith(b: nat, d: nat, p: nat, h: nat, q: nat)
    requires q == 16 * p
    ensures (b * 16 + d) * p + h == b * q + (d * p + h)
  {
  }

  /** One step of `HexValue`, with the leading digit's weight named. */
  lemma HexValueCons(w: string, d: nat, p: nat, rest: nat)
    requires |w| > 0 && AllHexDigits(w)
    requires d == DigitValue(w[0]) && p == Pow16(|w| - 1) && rest == HexValue(w[1..])
    ensures HexValue(w) == d * p + rest
  {
  }

  /** `0x` or `0X` in front, which `parseInt` with radix 16 skips. */
  predicate HasHexPrefix(u: string) {
    |u| >= 2 && u[0] == '0' && (u[1] == 'x' || u[1] == 'X')
  }

  /** The value of the leading run of hex digits, `NaN` when there is
      none. */
  function LeadingValue(v: string): Option<nat> {
    var k := DigitRun(v);
    if k == 0 then None else Some(HexValue(v[..k]))
  }

  /** The digits after the sign: a `0x`/`0X` prefix is dropped (radix 16
      allows it), then the longest run of hex digits is read; no digit at
      all is NaN. */
  function ParseMagnitude(u: string): (r: Option<nat>)
  {
    ReadDigits(if HasHexPrefix(u) then u[2..] else u, None)
  }

  /** The magnitude is the value of the leading hex-digit run after an
      optional `0x`, and `NaN` exactly when that run is empty. */
  lemma ParseMagnitudeValue(u: string)
    ensures HasHexPrefix(u) ==> ParseMagnitude(u) == LeadingValue(u[2..])
    ensures !HasHexPrefix(u) ==> ParseMagnitude(u) == LeadingValue(u)
  {
    ReadDigitsValue(if HasHexPrefix(u) then u[2..] else u, None);
  }

  /** One optional sign in front of the magnitude. The result `-0`
      prints as `0`, so it is kept as the integer 0. */
  function ParseSigned(t: string): (r: Option<int>)
    ensures r.Some? && |t| > 0 && t[0] == '-' ==> r.value <= 0
    ensures r.Some? && (|t| == 0 || t[0] != '-') ==> r.value >= 0
  {
    var negative := |t| > 0 && t[0] == '-';
    var digits := if |t| > 0 && (t[0] == '-' || t[0] == '+') then t[1..] else t;
    match ParseMagnitude(digits)
    case None => None
    case Some(m) => Some(if negative then -(m as int) else m)
  }

  /** `parseInt(s, 16)` following ECMAScript section 19.2.5: skip leading
      white space, take one optional sign, then read the magnitude. */
  function ParseIntHex(s: string): (r: Option<int>)
    ensures |s| == 0 ==> r.None?
  {
    ParseSigned(TrimStart(s))
  }

  /** The value of `parseInt(s, 16)`: after the leading white space, an
      optional `+` or `-`, then an optional `0x`; the result is `NaN`
      exactly when no hex digit follows, and otherwise the value of the
      leading digit run, negated after a `-`. */
  lemma ParseIntHexValue(s: string)
    ensures var t := TrimStart(s);
            var u := if |t| > 0 && (t[0] == '-' || t[0] == '+') then t[1..] else t;
            var m := if HasHexPrefix(u) then LeadingValue(u[2..]) else LeadingValue(u);
            && (ParseIntHex(s).None? <==> m.None?)
            && (m.Some? ==> ParseIntHex(s).value == if t[0] == '-' then -(m.value as int) else m.value)
  {
    var t := TrimStart(s);
    ParseMagnitudeValue(if |t| > 0 && (t[0] == '-' || t[0] == '+') then t[1..] else t);
  }

  /** `parseInt` of a few signed and prefixed strings: `-f` is -15, `+a`
      is 10, and ` 0x1g` stops at the `g` and is 1. */
  lemma ParseIntHexSamples()
    ensures ParseIntHex("-f") == Some(-15)
    ensures ParseIntHex("+a") == Some(10)
    ensures ParseIntHex(" 0x1g") == Some(1)
  {
    assert TrimStart("-f") == "-f" && "-f"[1..] == "f";
    assert ReadDigits("f"[1..], Some(15)) == Some(15);
    assert TrimStart("+a") == "+a" && "+a"[1..] == "a";
    assert ReadDigits("a"[1..], Some(10)) == Some(10);
    assert " 0x1g"[1..] == "0x1g" && "0x1g"[2..] == "1g" && "1g"[1..] == "g";
    assert TrimStart("0x1g") == "0x1g";
    assert ReadDigits("g", Some(1)) == Some(1);
  }

  /** `hexToRgba(hex, alpha)`: each channel is `parseInt` of a fixed
      two-character slice (positions 1-2, 3-4, 5-6); the character at
      position 0 is never looked at and the alpha is passed through. */
  function HexToRgba(hex: string, alpha: real): (c: Rgba)
    ensures c.alpha == alpha
    ensures |hex| <= 1 ==> c.r.None? && c.g.None? && c.b.None?
  {
    Rgba(Channel(hex, 1), Channel(hex, 3), Channel(hex, 5), alpha)
  }

  /** One channel: `parseInt(hex.slice(at, at + 2), 16)`. */
  function Channel(hex: string, at: nat): (v: Option<int>)
    ensures |hex| <= at ==> v.None?
  {
    ParseIntHex(Slice(hex, at, at + 2))
  }

  /** The byte written by the two hex digits at `at`. */
  function ByteAt(hex: string, at: nat): (v: nat)
    requires at + 2 <= |hex| && IsHexDigit(hex[at]) && IsHexDigit(hex[at + 1])
    ensures v < 256
  {
    16 * DigitValue(hex[at]) + DigitValue(hex[at + 1])
  }

  /** Two hex digits at `at` make the channel their byte value. */
  lemma ChannelOfDigits(hex: string, at: nat)
    requires at + 2 <= |hex| && IsHexDigit(hex[at]) && IsHexDigit(hex[at + 1])
    ensures Channel(hex, at) == Some(ByteAt(hex, at))
  {
    var s := hex[at..at + 2];
    assert s[0] == hex[at] && s[1] == hex[at + 1];
    ParseTwoDigits(s);
  }

  /** A colour as the colour pickers write it: `#` and six lower-case
      hex digits. */
  predicate IsColorHex(s: string) {
    && |s| == 7 && s[0] == '#'
    && forall i :: 1 <= i < 7 ==> ('0' <= s[i] <= '9' || 'a' <= s[i] <= 'f')
  }

  function HexChar(v: nat): (c: char)
    requires v < 16
    ensures IsHexDigit(c) && DigitValue(c) == v
    ensures '0' <= c <= '9' || 'a' <= c <= 'f'
  {
    if v < 10 then ('0' as int + v) as char else ('a' as int + v - 10) as char
  }

  /** Writes a channel value in [0,255] as two lower-case hex digits. */
  function ByteHex(v: nat): (s: string)
    requires v < 256
    ensures |s| == 2 && IsHexDigit(s[0]) && IsHexDigit(s[1])
    ensures 16 * DigitValue(s[0]) + DigitValue(s[1]) == v
  {
    [HexChar(v / 16), HexChar(v % 16)]
  }

  /** The inverse of `HexToRgba` on well-formed colours. */
  function FormatHex(r: nat, g: nat, b: nat): (s: string)
    requires r < 256 && g < 256 && b < 256
    ensures IsColorHex(s)
  {
    "#" + ByteHex(r) + ByteHex(g) + ByteHex(b)
  }

  /** Two hex digits read by `parseInt` give their base-16 value, which
      is a byte. */
  lemma ParseTwoDigits(s: string)
    requires |s| == 2 && IsHexDigit(s[0]) && IsHexDigit(s[1])
    ensures ParseIntHex(s) == Some(16 * DigitValue(s[0]) + DigitValue(s[1]))
    ensures 0 <= 16 * DigitValue(s[0]) + DigitValue(s[1]) <= 255
  {
    var d0, d1 := DigitValue(s[0]), DigitValue(s[1]);
    assert TrimStart(s) == s;
    assert !HasHexPrefix(s);
    assert ParseMagnitude(s) == ReadDigits(s, None);
    assert ReadDigits(s, None) == ReadDigits(s[1..], Some(d0));
    assert s[1..][0] == s[1] && s[1..][1..] == [];
    assert ReadDigits(s[1..], Some(d0)) == ReadDigits(s[1..][1..], Some(d0 * 16 + d1));
  }

  /** For any string whose characters 1 to 6 are hex digits, each channel
      is the byte its two-digit slice writes; the alpha is untouched. */
  lemma HexToRgbaChannels(hex: string, alpha: real)
    requires |hex| >= 7
    requires forall i :: 1 <= i < 7 ==> IsHexDigit(hex[i])
    ensures HexToRgba(hex, alpha)
         == Rgba(Some(ByteAt(hex, 1)), Some(ByteAt(hex, 3)), Some(ByteAt(hex, 5)), alpha)
  {
    ChannelOfDigits(hex, 1);
    ChannelOfDigits(hex, 3);
    ChannelOfDigits(hex, 5);
  }

  /** Formatting three bytes and parsing them back returns the bytes. */
  lemma FormatThenParse(r: nat, g: nat, b: nat, alpha: real)
    requires r < 256 && g < 256 && b < 256
    ensures HexToRgba(FormatHex(r, g, b), alpha) == Rgba(Some(r), Some(g), Some(b), alpha)
  {
    FormattedBytes(r, g, b);
    HexToRgbaChannels(FormatHex(r, g, b), alpha);
  }

  /** The bytes sit at positions 1, 3 and 5 of the formatted string. */
  lemma FormattedBytes(r: nat, g: nat, b: nat)
    requires r < 256 && g < 256 && b < 256
    ensures var s := FormatHex(r, g, b);
            ByteAt(s, 1) == r && ByteAt(s, 3) == g && ByteAt(s, 5) == b
  {
    var s := FormatHex(r, g, b);
    var br, bg, bb := ByteHex(r), ByteHex(g), ByteHex(b);
    assert s == "#" + br + bg + bb;
    assert s[1] == br[0] && s[2] == br[1];
    assert s[3] == bg[0] && s[4] == bg[1];
    assert s[5] == bb[0] && s[6] == bb[1];
  }

  /** Two digits written back by `ByteHex` after reading them. */
  lemma ByteHexOfDigits(c0: char, c1: char)
    requires '0' <= c0 <= '9' || 'a' <= c0 <= 'f'
    requires '0' <= c1 <= '9' || 'a' <= c1 <= 'f'
    ensures 16 * DigitValue(c0) + DigitValue(c1) < 256
    ensures ByteHex(16 * DigitValue(c0) + DigitValue(c1)) == [c0, c1]
  {
    var v := 16 * DigitValue(c0) + DigitValue(c1);
    assert v / 16 == DigitValue(c0) && v % 16 == DigitValue(c1);
    LowerDigitRoundTrip(c0);
    LowerDigitRoundTrip(c1);
  }

  /** Formatting the channels `HexToRgbaChannels` reads from a picker
      colour gives back the very same string. */
  lemma ParseThenFormat(hex: string)
    requires IsColorHex(hex)
    ensures FormatHex(ByteAt(hex, 1), ByteAt(hex, 3), ByteAt(hex, 5)) == hex
  {
    RewriteByte(hex, 1);
    RewriteByte(hex, 3);
    RewriteByte(hex, 5);
    assert hex == hex[..1] + hex[1..3] + hex[3..5] + hex[5..7];
  }

  /** One channel of `ParseThenFormat`. */
  lemma RewriteByte(hex: string, at: nat)
    requires IsColorHex(hex) && 1 <= at <= 5
    ensures ByteHex(ByteAt(hex, at)) == hex[at..at + 2]
  {
    ByteHexOfDigits(hex[at], hex[at + 1]);
  }

  lemma LowerDigitRoundTrip(c: char)
    requires '0' <= c <= '9' || 'a' <= c <= 'f'
    ensures IsHexDigit(c) && HexChar(DigitValue(c)) == c
  {
  }

  /** The three-digit shorthand is not understood: `#fff` reads as red
      255, green 15 (the single digit `f`) and a NaN blue channel. */
  lemma ShorthandIsMisread(alpha: real)
    ensures HexToRgba("#fff", alpha) == Rgba(Some(255), Some(15), None, alpha)
  {
    var hex := "#fff";
    assert Slice(hex, 1, 3) == "ff";
    ParseTwoDigits("ff");
    var one := "f";
    assert Slice(hex, 3, 5) == one;
    assert TrimStart(one) == one;
    assert ReadDigits(one[1..], Some(15)) == Some(15);
    assert Slice(hex, 5, 7) == "";
  }

  /** The default box colour `#7b68ee` is rgb(123, 104, 238). */
  lemma DefaultBoxColor(alpha: real)
    ensures HexToRgba("#7b68ee", alpha) == Rgba(Some(123), Some(104), Some(238), alpha)
  {
    HexToRgbaChannels("#7b68ee", alpha);
  }
}

=== FILE: draw.dfy ===
/** Abstract 2D canvas draw commands. Each command stands for one
    complete canvas call sequence of the overlay (`beginPath … stroke()`,
    `fillRect`, `strokeText`, …) with the canvas state it reads, such as
    `strokeStyle` and `lineWidth`, folded into the command. */
module Draw {
  import opened Geometry
  import Colors

  /** One colour stop of a canvas gradient. */
  datatype Stop = Stop(offset: real, color: Colors.Rgba)

  /** What a `strokeStyle` or `fillStyle` is set to. */
  datatype Paint =
    | Css(css: string)                 // a CSS colour string used as it is
    | Rgba(rgba: Colors.Rgba)          // the result of `hexToRgba`
    | Rgb(r: int, g: int, b: int)      // an `rgb(r, g, b)` template
    | RadialGradient(center: Point, innerRadius: real, outerRadius: real, stops: seq<Stop>)

  datatype Command =
    | ClearRect(x: real, y: real, w: real, h: real)
    | FillRect(x: real, y: real, w: real, h: real, paint: Paint)
    | StrokeRect(x: real, y: real, w: real, h: real, paint: Paint, lineWidth: real)
      /** `drawRoundedRect` followed by `stroke()`. */
    | StrokeRoundedRect(x: real, y: real, w: real, h: real, radius: real, paint: Paint, lineWidth: real)
      /** `drawLine`: one segment in its own path. */
    | StrokeLine(from: Point, to: Point, paint: Paint, lineWidth: real)
      /** One path made of several `moveTo`/`lineTo` runs, stroked once. */
    | StrokePolylines(polylines: seq<seq<Point>>, paint: Paint, lineWidth: real)
      /** A closed path filled once. */
    | FillPolygon(corners: seq<Point>, paint: Paint)
    | StrokeText(text: string, at: Point, fontPx: real, paint: Paint, lineWidth: real)
    | FillText(text: string, at: Point, fontPx: real, paint: Paint)
      /** The decorative hat layer, whose strokes are not modelled; it
          records the arguments `drawChineseHat` is called with. */
    | Hat(anchor: Point, top: real, width: real, height: real)

  const Black := Css("#000")
}

=== FILE: geometry.dfy ===
/** World space, normalized device coordinates and canvas pixels. */
module Geometry {
  import opened Nullable

  datatype Vec3 = Vec3(x: real, y: real, z: real)

  /** A point on the 2D overlay canvas, in pixels, y growing downwards. */
  datatype Point = Point(x: real, y: real)

  /** The axis-aligned world-space bounding box of the subject, as
      three.js `Box3.setFromObject` reports it. */
  datatype Box3 = Box3(min: Vec3, max: Vec3) {

    function Center(): Vec3 {
      Vec3((min.x + max.x) / 2.0, (min.y + max.y) / 2.0, (min.z + max.z) / 2.0)
    }

    function Size(): Vec3 {
      Vec3(max.x - min.x, max.y - min.y, max.z - min.z)
    }

    predicate Contains(p: Vec3) {
      && min.x <= p.x <= max.x
      && min.y <= p.y <= max.y
      && min.z <= p.z <= max.z
    }

    predicate NonEmpty() {
      min.x <= max.x && min.y <= max.y && min.z <= max.z
    }
  }

  /** The pixel size of the overlay canvas (`espCanvas.width/height`). */
  datatype Canvas = Canvas(width: nat, height: nat)

  /** The camera's view-projection transform, world point to NDC. It is
      supplied by the host (three.js `vector.project(camera)`). */
  type Camera = Vec3 -> Vec3

  /** A successful projection: canvas pixels plus the NDC depth. */
  datatype ScreenPos = ScreenPos(x: real, y: real, z: real) {
    function At(): Point { Point(x, y) }
  }

  /** The NDC-to-canvas half of `worldToScreen`: x maps [-1,1] to
      [0,width], y is flipped so that NDC +1 is the canvas top, and the
      only rejection is a depth beyond 1. No clipping happens. */
  function NdcToScreen(ndc: Vec3, canvas: Canvas): (r: Option<ScreenPos>)
    ensures r.None? <==> ndc.z > 1.0
    ensures r.Some? ==> r.value.z == ndc.z
    ensures r.Some? && -1.0 <= ndc.x <= 1.0 ==> 0.0 <= r.value.x <= canvas.width as real
    ensures r.Some? && -1.0 <= ndc.y <= 1.0 ==> 0.0 <= r.value.y <= canvas.height as real
  {
    var x := (ndc.x + 1.0) / 2.0 * canvas.width as real;
    var y := -(ndc.y - 1.0) / 2.0 * canvas.height as real;
    if ndc.z > 1.0 then None else Some(ScreenPos(x, y, ndc.z))
  }

  /** Inverse of the pixel mapping on a non-degenerate canvas. */
  function ScreenToNdc(p: ScreenPos, canvas: Canvas): (ndc: Vec3)
    requires canvas.width > 0 && canvas.height > 0
    ensures ndc.z == p.z
  {
    Vec3(p.x * 2.0 / canvas.width as real - 1.0, 1.0 - p.y * 2.0 / canvas.height as real, p.z)
  }

  /** `worldToScreen`: project with the camera, then map to pixels. A
      point is lost only behind the far plane, and on a non-degenerate
      canvas the pixels it lands on determine its device coordinates. */
  function WorldToScreen(camera: Camera, p: Vec3, canvas: Canvas): (r: Option<ScreenPos>)
    ensures r.None? <==> camera(p).z > 1.0
    ensures r.Some? ==> r.value.z == camera(p).z
    ensures r.Some? && canvas.width > 0 && canvas.height > 0 ==> ScreenToNdc(r.value, canvas) == camera(p)
  {
    var ndc := camera(p);
    if ndc.z <= 1.0 && canvas.width > 0 && canvas.height > 0 then
      NdcRoundTrip(ndc, canvas);
      NdcToScreen(ndc, canvas)
    else NdcToScreen(ndc, canvas)
  }

  /** Projecting and then inverting the pixel mapping recovers the NDC
      point, so the mapping loses nothing for accepted depths. */
  lemma NdcRoundTrip(ndc: Vec3, canvas: Canvas)
    requires canvas.width > 0 && canvas.height > 0
    requires ndc.z <= 1.0
    ensures NdcToScreen(ndc, canvas).Some?
    ensures ScreenToNdc(NdcToScreen(ndc, canvas).value, canvas) == ndc
  {
    var w := canvas.width as real;
    var h := canvas.height as real;
    var p := NdcToScreen(ndc, canvas).value;
    HalfScaleCancels((ndc.x + 1.0) / 2.0, w);
    HalfScaleCancels(-(ndc.y - 1.0) / 2.0, h);
  }

  /** Scaling by a positive length and dividing back out is the identity. */
  lemma HalfScaleCancels(u: real, w: real)
    requires w > 0.0
    ensures u * w * 2.0 / w == 2.0 * u
  {
    assert u * w * 2.0 == (2.0 * u) * w;
  }

  /** Dividing twice a length by a positive extent, halving and scaling back. */
  lemma DoubleOverCancels(a: real, w: real)
    requires w > 0.0
    ensures a * 2.0 / w / 2.0 * w == a
  {
    assert a * 2.0 / w / 2.0 == a / w;
    assert a / w * w == a;
  }

  lemma ScaleMonotone(a: real, b: real, w: real, x: real, y: real)
    requires a <= b && w >= 0.0
    requires x == a * w && y == b * w
    ensures x <= y
  {
    assert y - x == (b - a) * w;
  }

  /** The other direction: every canvas pixel with an accepted depth is
      the image of exactly the NDC point `ScreenToNdc` names. */
  lemma ScreenRoundTrip(p: ScreenPos, canvas: Canvas)
    requires canvas.width > 0 && canvas.height > 0
    requires p.z <= 1.0
    ensures NdcToScreen(ScreenToNdc(p, canvas), canvas) == Some(p)
  {
    var w := canvas.width as real;
    var h := canvas.height as real;
    var ndc := ScreenToNdc(p, canvas);
    DoubleOverCancels(p.x, w);
    DoubleOverCancels(p.y, h);
    assert ndc.x + 1.0 == p.x * 2.0 / w;
    assert -(ndc.y - 1.0) == p.y * 2.0 / h;
    assert (ndc.x + 1.0) / 2.0 * w == p.x;
    assert -(ndc.y - 1.0) / 2.0 * h == p.y;
    assert ndc.z <= 1.0;
    assert NdcToScreen(ndc, canvas).Some?;
    assert NdcToScreen(ndc, canvas).value.x == p.x;
    assert NdcToScreen(ndc, canvas).value.y == p.y;
  }

  /** The NDC corners land on the canvas corners: top-left is NDC
      (-1,+1), bottom-right is (+1,-1) and the NDC origin is the centre. */
  lemma NdcCorners(canvas: Canvas, z: real)
    requires z <= 1.0
    ensures NdcToScreen(Vec3(-1.0, 1.0, z), canvas).value.At() == Point(0.0, 0.0)
    ensures NdcToScreen(Vec3(1.0, -1.0, z), canvas).value.At()
         == Point(canvas.width as real, canvas.height as real)
    ensures NdcToScreen(Vec3(0.0, 0.0, z), canvas).value.At()
         == Point(canvas.width as real / 2.0, canvas.height as real / 2.0)
  {
  }

  /** A larger NDC x is further right on the canvas. */
  lemma NdcXMonotone(canvas: Canvas, a: Vec3, b: Vec3)
    requires a.z <= 1.0 && b.z <= 1.0 && a.x <= b.x
    ensures NdcToScreen(a, canvas).value.x <= NdcToScreen(b, canvas).value.x
  {
    var w := canvas.width as real;
    var ua, ub := (a.x + 1.0) / 2.0, (b.x + 1.0) / 2.0;
    ScaleMonotone(ua, ub, w, NdcToScreen(a, canvas).value.x, NdcToScreen(b, canvas).value.x);
  }

  /** A larger NDC y is higher up, that is a smaller canvas y: the
      mapping flips the vertical axis. */
  lemma NdcYFlipped(canvas: Canvas, a: Vec3, b: Vec3)
    requires a.z <= 1.0 && b.z <= 1.0 && a.y <= b.y
    ensures NdcToScreen(b, canvas).value.y <= NdcToScreen(a, canvas).value.y
  {
    var h := canvas.height as real;
    var ua, ub := -(a.y - 1.0) / 2.0, -(b.y - 1.0) / 2.0;
    ScaleMonotone(ub, ua, h, NdcToScreen(b, canvas).value.y, NdcToScreen(a, canvas).value.y);
  }

  /** Points outside the NDC cube are passed through unclipped: a depth
      of at most 1 is the only condition, whatever x and y are. */
  lemma NoClipping(ndc: Vec3, canvas: Canvas)
    requires canvas.width > 0
    requires ndc.z <= 1.0 && ndc.x > 1.0
    ensures NdcToScreen(ndc, canvas).Some?
    ensures NdcToScreen(ndc, canvas).value.x > canvas.width as real
  {
    var w := canvas.width as real;
    assert (ndc.x + 1.0) / 2.0 > 1.0;
    assert (ndc.x + 1.0) / 2.0 * w > 1.0 * w;
  }
}

=== FILE: health.dfy ===
/** The synthetic health value: a triangular-eased oscillation between 0
    and 100 that lingers at each bound until a per-tick coin flip sends
    it back (`updateHealthAnimation`). */
module HealthOscillator {
  import opened Reals

  /** `currentHealth` and `healthAnimationDirection`. */
  datatype HealthState = HealthState(value: real, direction: int)

  /** The start-up values: full health, heading down. */
  const Initial := HealthState(100.0, -1)

  /** `healthAnimationSpeed`. */
  const BaseSpeed: real := 0.5

  /** The slowest step, taken at the bounds. */
  const MinStep: real := 0.15

  predicate Valid(s: HealthState) {
    0.0 <= s.value <= 100.0 && (s.direction == 1 || s.direction == -1)
  }

  /** 1 at the midpoint 50, falling linearly to 0 at both bounds. */
  function Easing(value: real): (e: real)
    ensures 0.0 <= value <= 100.0 ==> 0.0 <= e <= 1.0
    ensures e == 1.0 <==> value == 50.0
  {
    1.0 - Abs((value - 50.0) / 50.0)
  }

  function Speed(value: real): (step: real)
    ensures 0.0 <= value <= 100.0 ==> MinStep <= step <= BaseSpeed
  {
    BaseSpeed * (0.3 + Easing(value) * 0.7)
  }

  /** One frame of `updateHealthAnimation`; `coin` is the outcome of
      `Math.random() < 0.02`. */
  function Tick(s: HealthState, coin: bool): (r: HealthState)
    ensures Valid(s) ==> Valid(r)
    // the direction changes only on a successful coin, at a bound, and
    // always towards the interior
    ensures r.direction != s.direction ==>
              coin && ((r.value == 0.0 && r.direction == 1) || (r.value == 100.0 && r.direction == -1))
    ensures 0.0 < r.value < 100.0 ==> r.direction == s.direction
    // and conversely: a successful coin on a tick that clamps always
    // turns the value inwards, a failed coin never turns it
    ensures coin && r.value == 0.0 ==> r.direction == 1
    ensures coin && r.value == 100.0 ==> r.direction == -1
    ensures !coin ==> r.direction == s.direction
    // the value moves by the eased speed in its direction, clamped to
    // the bounds: it rests on a bound exactly when the move reaches it
    ensures 0.0 < r.value < 100.0 ==> r.value == s.value + s.direction as real * Speed(s.value)
    ensures r.value == 0.0 <==> s.value + s.direction as real * Speed(s.value) <= 0.0
    ensures r.value == 100.0 <==> s.value + s.direction as real * Speed(s.value) >= 100.0
  {
    var moved := s.value + s.direction as real * Speed(s.value);
    if moved <= 0.0 then
      HealthState(0.0, if coin then 1 else s.direction)
    else if moved >= 100.0 then
      HealthState(100.0, if coin then -1 else s.direction)
    else
      HealthState(moved, s.direction)
  }

  /** From a valid state no tick moves the value further than the eased
      speed at its old value: clamping only shortens a step. */
  lemma TickStepBound(s: HealthState, coin: bool)
    requires Valid(s)
    ensures Abs(Tick(s, coin).value - s.value) <= Speed(s.value)
  {
  }

  /** The easing curve is symmetric about the midpoint and peaks there. */
  lemma SpeedShape(d: real)
    requires 0.0 <= d <= 50.0
    ensures Speed(50.0 + d) == Speed(50.0 - d)
    ensures Speed(50.0) == BaseSpeed && Speed(0.0) == MinStep && Speed(100.0) == MinStep
    ensures Speed(50.0 + d) <= Speed(50.0)
  {
  }

  /** Heading down, a tick never raises the value; away from 0 it
      strictly lowers it by at least the smallest step (or reaches 0). */
  lemma TickDescends(s: HealthState, coin: bool)
    requires Valid(s) && s.direction == -1
    ensures Tick(s, coin).value <= s.value
    ensures s.value > 0.0 ==> Tick(s, coin).value < s.value
    ensures Tick(s, coin).value == 0.0 || Tick(s, coin).value <= s.value - MinStep
    ensures Tick(s, coin).direction == -1 || (coin && Tick(s, coin).value == 0.0)
  {
  }

  /** Heading up is the mirror image. */
  lemma TickAscends(s: HealthState, coin: bool)
    requires Valid(s) && s.direction == 1
    ensures Tick(s, coin).value >= s.value
    ensures s.value < 100.0 ==> Tick(s, coin).value > s.value
    ensures Tick(s, coin).value == 100.0 || Tick(s, coin).value >= s.value + MinStep
    ensures Tick(s, coin).direction == 1 || (coin && Tick(s, coin).value == 100.0)
  {
  }

  /** At a bound and still pushing outwards, the value stays put and the
      direction reverses exactly when the coin comes up. */
  lemma DwellAtBounds(coin: bool)
    ensures Tick(HealthState(0.0, -1), coin) == HealthState(0.0, if coin then 1 else -1)
    ensures Tick(HealthState(100.0, 1), coin) == HealthState(100.0, if coin then -1 else 1)
  {
  }

  /** The state after one tick per coin, in order. */
  function Run(s: HealthState, coins: seq<bool>): (r: HealthState)
    ensures Valid(s) ==> Valid(r)
    decreases |coins|
  {
    if |coins| == 0 then s else Run(Tick(s, coins[0]), coins[1..])
  }

  /** With the coin never coming up, a descending value falls by at
      least the smallest step per tick until it rests at 0. */
  lemma {:induction false} DescentWithoutFlip(s: HealthState, coins: seq<bool>)
    requires Valid(s) && s.direction == -1
    requires forall i :: 0 <= i < |coins| ==> !coins[i]
    ensures Run(s, coins).direction == -1
    ensures Run(s, coins).value <= s.value
    ensures Run(s, coins).value <= Max(0.0, s.value - MinStep * |coins| as real)
    decreases |coins|
  {
    if |coins| > 0 {
      var t := Tick(s, coins[0]);
      TickDescends(s, coins[0]);
      DescentWithoutFlip(t, coins[1..]);
      assert MinStep * |coins| as real == MinStep + MinStep * |coins[1..]| as real;
    }
  }

  /** From start-up, 667 ticks without a reversal bring the value from
      100 down to 0. */
  lemma InitialReachesZero(coins: seq<bool>)
    requires |coins| >= 667
    requires forall i :: 0 <= i < |coins| ==> !coins[i]
    ensures Run(Initial, coins) == HealthState(0.0, -1)
  {
    DescentWithoutFlip(Initial, coins);
    assert MinStep * |coins| as real >= MinStep * 667.0;
  }
}

/** The vertical health bar drawn to the left of the box
    (`drawHealthBar`). */
module HealthBar {
  import opened Geometry
  import opened Draw

  /** `barWidth` and the gap between bar and box. */
  const BarWidth: real := 4.0
  const BarGap: real := 2.0

  /** `Math.max(0, Math.min(1, health / 100))`. */
  function Percent(health: real): (p: real)
    ensures 0.0 <= p <= 1.0
    ensures 0.0 <= health <= 100.0 ==> p * 100.0 == health
    ensures health <= 0.0 ==> p == 0.0
    ensures health >= 100.0 ==> p == 1.0
  {
    var q := health / 100.0;
    var upper := if 1.0 < q then 1.0 else q;
    if 0.0 < upper then upper else 0.0
  }

  datatype BarColor = BarColor(r: int, g: int)

  /** The red and green channels of the fill for a clamped percentage,
      rounded down with `Math.floor`. */
  function ColorOf(p: real): (c: BarColor)
    requires 0.0 <= p <= 1.0
    ensures 0 <= c.r <= 255 && 0 <= c.g <= 255
    ensures c.r == 255 || c.g == 255
  {
    if p > 0.5 then BarColor((255.0 * ((1.0 - p) * 2.0)).Floor, 255)
    else BarColor(255, (255.0 * (p * 2.0)).Floor)
  }

  function HealthColor(health: real): BarColor {
    ColorOf(Percent(health))
  }

  /** The colour ramp stated on health values: above 50 green is full and
      red grows from 0 at 100 to 255 at 50; at or below 50 red is full and
      green falls from 255 at 50 to 0 at 0. */
  lemma HealthColorRamp(health: real)
    requires 0.0 <= health <= 100.0
    ensures health > 50.0 ==> HealthColor(health) == BarColor((255.0 * (100.0 - health) / 50.0).Floor, 255)
    ensures health <= 50.0 ==> HealthColor(health) == BarColor(255, (255.0 * health / 50.0).Floor)
  {
    var p := Percent(health);
    assert p == health / 100.0;
  }

  /** Sample points: full health is pure green, half is yellow, zero is
      pure red, and 75 rounds its red channel down to 127. */
  lemma HealthColorSamples()
    ensures HealthColor(100.0) == BarColor(0, 255)
    ensures HealthColor(50.0) == BarColor(255, 255)
    ensures HealthColor(0.0) == BarColor(255, 0)
    ensures HealthColor(75.0) == BarColor(127, 255)
    ensures HealthColor(150.0) == HealthColor(100.0) && HealthColor(-20.0) == HealthColor(0.0)
  {
    assert Percent(75.0) == 0.75;
    assert 255.0 * ((1.0 - 0.75) * 2.0) == 127.5;
  }

  lemma FloorMonotone(x: real, y: real)
    requires x <= y
    ensures x.Floor <= y.Floor
  {
  }

  /** More health never adds red and never removes green. */
  lemma HealthColorMonotone(h1: real, h2: real)
    requires h1 <= h2
    ensures HealthColor(h2).r <= HealthColor(h1).r
    ensures HealthColor(h1).g <= HealthColor(h2).g
  {
    var p1, p2 := Percent(h1), Percent(h2);
    assert p1 <= p2;
    if p1 > 0.5 {
      FloorMonotone(255.0 * ((1.0 - p2) * 2.0), 255.0 * ((1.0 - p1) * 2.0));
    } else if p2 <= 0.5 {
      FloorMonotone(255.0 * (p1 * 2.0), 255.0 * (p2 * 2.0));
    }
  }

  /** The track, the fill and the outline, in that order. The bar's
      left edge is `left - 6`; the fill grows up from `bottom`. */
  function Bar(left: real, top: real, bottom: real, boxHeight: real, health: real): (cmds: seq<Command>)
    ensures |cmds| == 3
    ensures cmds[0].FillRect? && cmds[1].FillRect? && cmds[2].StrokeRect?
    // the bar sits a 2-pixel gap to the left of the box
    ensures forall i :: 0 <= i < 3 ==> cmds[i].x + cmds[i].w == left - BarGap && cmds[i].w == BarWidth
    // track and outline span the whole box height from the top
    ensures cmds[0].y == top && cmds[0].h == boxHeight && cmds[2].y == top && cmds[2].h == boxHeight
    // the fill ends at the bottom and its height is proportional to health
    ensures cmds[1].y + cmds[1].h == bottom
    ensures boxHeight >= 0.0 ==> 0.0 <= cmds[1].h <= boxHeight
    ensures 0.0 <= health <= 100.0 ==> cmds[1].h * 100.0 == boxHeight * health
    ensures cmds[1].paint == Rgb(HealthColor(health).r, HealthColor(health).g, 0)
    // a translucent grey track under the fill, a thin black outline over it
    ensures cmds[0].paint == Css("rgba(50, 50, 50, 0.8)")
    ensures cmds[2].paint == Black && cmds[2].lineWidth == 1.0
  {
    var x := left - BarWidth - BarGap;
    var p := Percent(health);
    var c := ColorOf(p);
    var fill := boxHeight * p;
    [ FillRect(x, top, BarWidth, boxHeight, Css("rgba(50, 50, 50, 0.8)")),
      FillRect(x, bottom - fill, BarWidth, fill, Rgb(c.r, c.g, 0)),
      StrokeRect(x, top, BarWidth, boxHeight, Black, 1.0) ]
  }
}

=== FILE: labels.dfy ===
/** The tracer line (`drawTracers`) and the two text labels (`drawName`,
    `drawDistance`). */
module Labels {
  import opened Nullable
  import opened Geometry
  import opened Draw
  import opened Options

  // ---------------------------------------------------------------- tracers

  /** Where the tracer starts: `tracerStart` 0 is the bottom centre of the
      canvas, 1 the top centre, 2 the last mouse position, and any other
      value the centre. */
  function TracerOrigin(tracerStart: int, canvas: Canvas, mouse: Point): (p: Point)
    ensures tracerStart != 2 ==> p.x == canvas.width as real / 2.0
    ensures tracerStart != 2 ==> 0.0 <= p.y <= canvas.height as real
    ensures tracerStart == 2 ==> p == mouse
  {
    var w, h := canvas.width as real, canvas.height as real;
    if tracerStart == 0 then Point(w / 2.0, h)
    else if tracerStart == 1 then Point(w / 2.0, 0.0)
    else if tracerStart == 2 then mouse
    else Point(w / 2.0, h / 2.0)
  }

  /** The tracer: the same segment from the origin to the subject's
      projected centre, black and 3.5 wide, then in the tracer colour and
      2 wide. */
  function Tracer(o: EspOptions, canvas: Canvas, mouse: Point, target: Point): (cmds: seq<Command>)
    ensures |cmds| == 2 && cmds[0].StrokeLine? && cmds[1].StrokeLine?
    ensures cmds[0].from == cmds[1].from == TracerOrigin(o.tracerStart, canvas, mouse)
    ensures cmds[0].to == cmds[1].to == target
    ensures cmds[0].paint == Black && cmds[1].paint == Css(o.tracerColor)
    ensures cmds[0].lineWidth > cmds[1].lineWidth
  {
    var start := TracerOrigin(o.tracerStart, canvas, mouse);
    [StrokeLine(start, target, Black, 3.5), StrokeLine(start, target, Css(o.tracerColor), 2.0)]
  }

  /** The four named origins, and the fall-through for every other value. */
  lemma TracerOrigins(canvas: Canvas, mouse: Point, other: int)
    requires other !in {0, 1, 2}
    ensures var w, h := canvas.width as real, canvas.height as real;
            && TracerOrigin(0, canvas, mouse) == Point(w / 2.0, h)
            && TracerOrigin(1, canvas, mouse) == Point(w / 2.0, 0.0)
            && TracerOrigin(2, canvas, mouse) == mouse
            && TracerOrigin(other, canvas, mouse) == Point(w / 2.0, h / 2.0)
  {
  }

  // ---------------------------------------------------------------- text

  /** Stroke the text in black (width 3), then fill it in `color`, both
      centred on `at` with the given font size. */
  function OutlinedText(text: string, at: Point, fontPx: real, color: string): (cmds: seq<Command>)
    ensures |cmds| == 2 && cmds[0].StrokeText? && cmds[1].FillText?
    ensures cmds[0].text == cmds[1].text == text && cmds[0].at == cmds[1].at == at
    ensures cmds[0].fontPx == cmds[1].fontPx == fontPx
    ensures cmds[0].paint == Black && cmds[1].paint == Css(color)
  {
    [StrokeText(text, at, fontPx, Black, 3.0), FillText(text, at, fontPx, Css(color))]
  }

  /** The subject's caption. */
  const NameText: string := "Model"

  /** `drawName`: the caption centred over the box, `10 * scale` above its
      top edge, in a `14 * scale` pixel font. */
  function NameLabel(o: EspOptions, screen: Point, top: real, scale: real): (cmds: seq<Command>)
    ensures |cmds| == 2 && cmds[0].StrokeText? && cmds[1].FillText?
    ensures cmds[0].text == NameText && cmds[1].paint == Css(o.nameColor)
    ensures cmds[0].at.x == screen.x && cmds[0].at.y + 10.0 * scale == top
    ensures scale > 0.0 ==> cmds[0].at.y < top
    ensures cmds[0].fontPx == 14.0 * scale
    // the coloured fill writes the same text at the same place and size
    // over the black outline
    ensures cmds[0].paint == Black
    ensures cmds[1].text == cmds[0].text && cmds[1].at == cmds[0].at && cmds[1].fontPx == cmds[0].fontPx
  {
    OutlinedText(NameText, Point(screen.x, top - 10.0 * scale), 14.0 * scale, o.nameColor)
  }

  /** `drawDistance`: the bracketed distance centred under the box,
      `20 * scale` below its bottom edge, in a `12 * scale` pixel font.
      `distance` is the camera's distance from the origin, already rounded
      down to a whole number by the host. */
  function DistanceLabel(o: EspOptions, screen: Point, bottom: real, scale: real, distance: int): (cmds: seq<Command>)
    ensures |cmds| == 2 && cmds[0].StrokeText? && cmds[1].FillText?
    ensures cmds[1].paint == Css(o.distanceColor)
    ensures ParseDistanceText(cmds[0].text) == Some(distance)
    ensures cmds[0].at.x == screen.x && cmds[0].at.y == bottom + 20.0 * scale
    ensures scale > 0.0 ==> cmds[0].at.y > bottom
    ensures cmds[0].fontPx == 12.0 * scale
    // the coloured fill writes the same text at the same place and size
    // over the black outline
    ensures cmds[0].paint == Black
    ensures cmds[1].text == cmds[0].text && cmds[1].at == cmds[0].at && cmds[1].fontPx == cmds[0].fontPx
  {
    DistanceRoundTrip(distance);
    OutlinedText(DistanceText(distance), Point(screen.x, bottom + 20.0 * scale), 12.0 * scale, o.distanceColor)
  }

  // ---------------------------------------------------------------- numbers

  predicate IsDigit(c: char) {
    '0' <= c <= '9'
  }

  function DigitChar(d: nat): (c: char)
    requires d < 10
    ensures IsDigit(c) && (c as int) - ('0' as int) == d
  {
    ('0' as int + d) as char
  }

  /** The decimal digits of a natural number, most significant first, as
      a JavaScript template literal writes them. */
  function NatText(n: nat): (s: string)
    ensures |s| >= 1
    ensures forall i :: 0 <= i < |s| ==> IsDigit(s[i])
    // no leading zero except for zero itself
    ensures s[0] == '0' ==> n == 0
    decreases n
  {
    if n < 10 then [DigitChar(n)] else NatText(n / 10) + [DigitChar(n % 10)]
  }

  /** An integer: a minus sign before a negative one. */
  function IntText(d: int): (s: string)
    ensures |s| >= 1
  {
    if d < 0 then "-" + NatText(-d) else NatText(d)
  }

  /** The label text `[<distance>m]`. */
  function DistanceText(d: int): (s: string)
    ensures |s| >= 4 && s[0] == '[' && s[|s| - 2..] == "m]"
  {
    "[" + IntText(d) + "m]"
  }

  /** Reads a run of decimal digits; `None` when some character is not a
      digit or the run is empty. */
  function ParseNat(s: string): (r: Option<nat>)
    ensures r.Some? ==> |s| >= 1
    decreases |s|
  {
    if |s| == 0 || !IsDigit(s[|s| - 1]) then None
    else if |s| == 1 then Some((s[0] as int) - ('0' as int))
    else match ParseNat(s[..|s| - 1])
         case None => None
         case Some(m) => Some(m * 10 + ((s[|s| - 1] as int) - ('0' as int)))
  }

  /** Reads an optional minus sign and a digit run. */
  function ParseInt(s: string): Option<int> {
    if |s| >= 1 && s[0] == '-' then
      match ParseNat(s[1..])
      case None => None
      case Some(m) => Some(-(m as int))
    else
      match ParseNat(s)
      case None => None
      case Some(m) => Some(m as int)
  }

  /** Reads a distance label back: `[`, an integer, `m]`. */
  function ParseDistanceText(s: string): Option<int> {
    if |s| >= 3 && s[0] == '[' && s[|s| - 2..] == "m]" then ParseInt(s[1..|s| - 2]) else None
  }

  lemma {:induction false} NatRoundTrip(n: nat)
    ensures ParseNat(NatText(n)) == Some(n)
    decreases n
  {
    if n >= 10 {
      var s := NatText(n);
      var prefix := NatText(n / 10);
      assert s[..|s| - 1] == prefix;
      NatRoundTrip(n / 10);
    }
  }

  lemma IntRoundTrip(d: int)
    ensures ParseInt(IntText(d)) == Some(d)
  {
    if d < 0 {
      NatRoundTrip(-d);
      assert IntText(d)[1..] == NatText(-d);
    } else {
      NatRoundTrip(d);
      assert NatText(d)[0] != '-';
    }
  }

  /** Reading a printed label gives back the distance it was printed
      from. */
  lemma DistanceRoundTrip(d: int)
    ensures ParseDistanceText(DistanceText(d)) == Some(d)
  {
    var s := DistanceText(d);
    assert s[1..|s| - 2] == IntText(d);
    IntRoundTrip(d);
  }

  /** Different distances get different labels. */
  lemma DistanceLabelsInjective(d1: int, d2: int)
    requires DistanceText(d1) == DistanceText(d2)
    ensures d1 == d2
  {
    DistanceRoundTrip(d1);
    DistanceRoundTrip(d2);
  }

  /** Two formatting samples: a distance of 5 prints `[5m]` and one of
      12 prints `[12m]`. */
  lemma DistanceSamples()
    ensures DistanceText(5) == "[5m]"
    ensures DistanceText(12) == "[12m]"
  {
  }
}

=== FILE: nullable.dfy ===
/** The null-or-value wrapper used wherever the overlay code checks a
    projected point (or a parsed number) against `null`/`NaN`. */
module Nullable {

  datatype Option<+T> = None | Some(value: T)

  /** Drops the `None` entries and keeps the order of the rest, like
      `array.filter(pos => pos !== null)`. */
  function Present<T>(s: seq<Option<T>>): (r: seq<T>)
    ensures |r| <= |s|
    ensures |r| == |s| <==> forall i :: 0 <= i < |s| ==> s[i].Some?
    ensures |r| == |s| ==> forall i :: 0 <= i < |s| ==> r[i] == s[i].value
  {
    if |s| == 0 then []
    else
      var rest := Present(s[1..]);
      assert forall i :: 1 <= i < |s| ==> s[i] == s[1..][i - 1];
      if s[0].Some? then [s[0].value] + rest else rest
  }
}

=== FILE: options.dfy ===
/** The overlay's option record (`espOptions`) and its start-up values. */
module Options {
  import Colors

  /** One field per option. `boxType` and `tracerStart` are the integers
      the style selectors hold; a selector value the code does not know
      (including a `NaN` from parsing) behaves like any other unknown
      integer. */
  datatype EspOptions = EspOptions(
    box: bool,
    boxType: int,
    boxFilled: bool,
    boxColor: string,
    boxFillColor: string,
    name: bool,
    nameColor: string,
    distance: bool,
    distanceColor: string,
    health: bool,
    skeleton: bool,
    skeletonColor: string,
    tracers: bool,
    tracerColor: string,
    tracerStart: int,
    chineseHat: bool,
    chineseHatColor: string)

  /** The values the overlay starts with. */
  const Defaults := EspOptions(
    box := true,
    boxType := 0,
    boxFilled := false,
    boxColor := "#7b68ee",
    boxFillColor := "#7b68ee",
    name := true,
    nameColor := "#ffffff",
    distance := true,
    distanceColor := "#aaaaaa",
    health := true,
    skeleton := true,
    skeletonColor := "#ffffff",
    tracers := true,
    tracerColor := "#7b68ee",
    tracerStart := 0,
    chineseHat := false,
    chineseHatColor := "#ffffff")

  /** Every colour option starts as a well-formed lower-case `#rrggbb`
      string, so `hexToRgba` reads three real channels from each; every
      layer but the hat starts enabled, with the plain outline box and
      tracers from the bottom centre. */
  lemma DefaultsWellFormed()
    ensures var d := Defaults;
            && Colors.IsColorHex(d.boxColor) && Colors.IsColorHex(d.boxFillColor)
            && Colors.IsColorHex(d.nameColor) && Colors.IsColorHex(d.distanceColor)
            && Colors.IsColorHex(d.skeletonColor) && Colors.IsColorHex(d.tracerColor)
            && Colors.IsColorHex(d.chineseHatColor)
    ensures Defaults.box && Defaults.name && Defaults.distance && Defaults.health
            && Defaults.skeleton && Defaults.tracers && !Defaults.chineseHat
    ensures Defaults.boxType == 0 && !Defaults.boxFilled && Defaults.tracerStart == 0
  {
  }
}

=== FILE: overlay.dfy ===
/** The per-frame compositor (`drawESP`) and the animation step that
    advances the health value before drawing (`animate`). */
module Overlay {
  import opened Nullable
  import opened Reals
  import opened Geometry
  import opened Draw
  import opened Options
  import BoxStyles
  import Skeleton
  import HealthOscillator
  import HealthBar
  import Labels

  /** Everything a frame reads besides the options: the subject's
      bounding box (`None` before a model is loaded), the camera, the
      canvas, the last mouse position, the camera's whole-number distance
      from the origin, the current health value and the glow pulse. */
  datatype Scene = Scene(subject: Option<Box3>, camera: Camera, canvas: Canvas, mouse: Point,
                         distance: int, health: real, pulse: real)

  /** The layers, declared in drawing order. */
  datatype LayerKind = Tracers | BoxLayer | Bones | Health | Name | Distance | HatLayer

  /** The position of a layer in the drawing order. */
  function Rank(k: LayerKind): (r: nat)
    ensures r < 7 && KindAt(r) == k
  {
    match k
    case Tracers => 0 case BoxLayer => 1 case Bones => 2 case Health => 3
    case Name => 4 case Distance => 5 case HatLayer => 6
  }

  function KindAt(r: nat): LayerKind
    requires r < 7
  {
    if r == 0 then Tracers else if r == 1 then BoxLayer else if r == 2 then Bones
    else if r == 3 then Health else if r == 4 then Name else if r == 5 then Distance
    else HatLayer
  }

  /** The option flags `drawESP` tests, in the order it tests them. */
  function Flags(o: EspOptions): (fs: seq<bool>)
    ensures |fs| == 7
  {
    [o.tracers, o.box, o.skeleton, o.health, o.name, o.distance, o.chineseHat]
  }

  /** The option flag that switches a layer on. */
  predicate Enabled(o: EspOptions, k: LayerKind) {
    match k
    case Tracers => o.tracers case BoxLayer => o.box case Bones => o.skeleton
    case Health => o.health case Name => o.name case Distance => o.distance
    case HatLayer => o.chineseHat
  }

  /** Each layer is switched by the flag tested at its position in the
      drawing order. */
  lemma EnabledFlag(o: EspOptions, k: LayerKind)
    ensures Enabled(o, k) == Flags(o)[Rank(k)]
  {
  }

  datatype Layer = Layer(kind: LayerKind, commands: seq<Command>)

  /** The canvas clear that always comes first, and the layers drawn
      after it. */
  datatype Frame = Frame(clear: Command, layers: seq<Layer>)

  /** The on-screen measurements `drawESP` takes of the subject. */
  datatype Extents = Extents(screen: ScreenPos, left: real, right: real, top: real, bottom: real,
                             boxWidth: real, boxHeight: real, scale: real)

  /** The four silhouette anchors: the middles of the top, bottom, left
      and right faces of the box, at the box's centre depth. Each lies on
      its face and, for a non-empty box, inside the box; the top and
      bottom anchors lie on the vertical centre line, the left and right
      anchors on the horizontal one. */
  function Anchors(box: Box3): (a: seq<Vec3>)
    ensures |a| == 4
    ensures a[0].y == box.max.y && a[1].y == box.min.y && a[2].x == box.min.x && a[3].x == box.max.x
    ensures a[0].x == a[1].x == box.Center().x && a[2].y == a[3].y == box.Center().y
    ensures forall i :: 0 <= i < 4 ==> a[i].z == box.Center().z
    ensures box.NonEmpty() ==> forall i :: 0 <= i < 4 ==> box.Contains(a[i])
  {
    var c := box.Center();
    [Vec3(c.x, box.max.y, c.z), Vec3(c.x, box.min.y, c.z), Vec3(box.min.x, c.y, c.z), Vec3(box.max.x, c.y, c.z)]
  }

  /** The centre and the anchors projected, centre first. */
  function Projections(box: Box3, camera: Camera, canvas: Canvas): (ps: seq<Option<ScreenPos>>)
    ensures |ps| == 5
    // a point fails to project exactly when it lies beyond the far plane
    ensures ps[0].None? <==> camera(box.Center()).z > 1.0
    ensures forall i :: 1 <= i < 5 ==> (ps[i].None? <==> camera(Anchors(box)[i - 1]).z > 1.0)
  {
    var a := Anchors(box);
    [WorldToScreen(camera, box.Center(), canvas)]
    + seq(4, i requires 0 <= i < 4 => WorldToScreen(camera, a[i], canvas))
  }

  /** The measuring half of `drawESP`: nothing unless the centre and all
      four anchors project; then a box centred on the projected centre,
      as wide as the left and right anchors are apart and spanning the
      top anchor to the bottom anchor. */
  function Measure(box: Box3, camera: Camera, canvas: Canvas): (e: Option<Extents>)
    ensures e.Some? <==> forall i :: 0 <= i < 5 ==> Projections(box, camera, canvas)[i].Some?
    ensures e.Some? ==>
              var ps := Projections(box, camera, canvas);
              var v := e.value;
              && v.screen == ps[0].value
              && v.top == ps[1].value.y && v.bottom == ps[2].value.y
              && v.boxWidth == Abs(ps[4].value.x - ps[3].value.x)
              && v.boxHeight == Abs(ps[2].value.y - ps[1].value.y)
              && v.left + v.right == 2.0 * v.screen.x && v.right - v.left == v.boxWidth
              && v.scale * 100.0 == v.boxHeight
  {
    var ps := Projections(box, camera, canvas);
    if ps[0].None? || ps[1].None? || ps[2].None? || ps[3].None? || ps[4].None? then None
    else
      var screen, top, bottom, left, right := ps[0].value, ps[1].value, ps[2].value, ps[3].value, ps[4].value;
      var boxHeight := Abs(bottom.y - top.y);
      var boxWidth := Abs(right.x - left.x);
      Some(Extents(screen, screen.x - boxWidth / 2.0, screen.x + boxWidth / 2.0, top.y, bottom.y,
                   boxWidth, boxHeight, boxHeight / 100.0))
  }

  /** The screen rectangle `drawESP` hands to `drawBox`. */
  function BoxRect(e: Extents): BoxStyles.Rect {
    BoxStyles.Rect(e.left, e.top, e.right, e.bottom)
  }

  /** How many positions of the drawing order a frame gets through: all
      seven, unless the box layer is on and `drawBox` throws, which ends
      `drawESP` inside the box layer. */
  function Reached(o: EspOptions, e: Extents): (n: nat)
    ensures n == 7 || n == Rank(BoxLayer) + 1
    ensures n < 7 <==> o.box && BoxStyles.DrawBoxThrows(o, BoxRect(e))
  {
    if o.box && BoxStyles.DrawBoxThrows(o, BoxRect(e)) then Rank(BoxLayer) + 1 else 7
  }

  /** What each layer draws for a measured subject: the tracer runs to
      the projected centre; the box layer draws nothing for an unknown
      box type; the skeleton strokes each drawn bone once per pass; the
      health bar stands just left of the box; the name is written above
      the centre and the distance below it, readable back as the scene's
      distance. The hat layer is one opaque `Hat` command recording the
      arguments `drawESP` passes, which `drawChineseHat` does not read. */
  function Content(k: LayerKind, o: EspOptions, scene: Scene, box: Box3, e: Extents): (cs: seq<Command>)
    ensures k == Tracers ==>
              |cs| == 2 && cs[0].StrokeLine? && cs[1].StrokeLine?
              && cs[0].to == e.screen.At() && cs[1].to == e.screen.At() && cs[1].paint == Css(o.tracerColor)
    ensures k == BoxLayer ==>
              && (!(0 <= o.boxType <= 3) ==> cs == [])
              && (0 <= o.boxType <= 2 && !BoxStyles.DrawBoxThrows(o, BoxRect(e)) ==> |cs| >= 2)
              && (BoxStyles.DrawBoxThrows(o, BoxRect(e)) ==> cs == BoxStyles.BoxFill(o, BoxRect(e)))
    ensures k == Bones ==>
              |cs| == 2 * |Skeleton.DrawnFrom(Skeleton.Project(box, scene.camera, scene.canvas), 0)|
              <= 2 * |Skeleton.Bones|
    ensures k == Health ==>
              && |cs| == 3 && cs[0].FillRect? && cs[1].FillRect? && cs[2].StrokeRect?
              && forall i :: 0 <= i < 3 ==> cs[i].x + cs[i].w == e.left - HealthBar.BarGap
    ensures k == Name ==>
              |cs| == 2 && cs[0].StrokeText? && cs[0].text == Labels.NameText
              && cs[0].at.x == e.screen.x && cs[0].at.y + 10.0 * e.scale == e.top
    ensures k == Distance ==>
              |cs| == 2 && cs[0].StrokeText? && Labels.ParseDistanceText(cs[0].text) == Some(scene.distance)
              && cs[0].at.x == e.screen.x && cs[0].at.y == e.bottom + 20.0 * e.scale
    ensures k == HatLayer ==>
              && |cs| == 1 && cs[0].Hat? && cs[0].anchor == e.screen.At() && cs[0].top == e.top
              && cs[0].width == e.boxWidth && cs[0].height == e.boxHeight
  {
    match k
    case Tracers => Labels.Tracer(o, scene.canvas, scene.mouse, e.screen.At())
    case BoxLayer => BoxStyles.DrawBox(o, BoxRect(e), box, scene.camera, scene.canvas, scene.pulse)
    case Bones => Skeleton.DrawSkeleton(box, scene.camera, scene.canvas, o.skeletonColor)
    case Health => HealthBar.Bar(e.left, e.top, e.bottom, e.boxHeight, scene.health)
    case Name => Labels.NameLabel(o, e.screen.At(), e.top, e.scale)
    case Distance => Labels.DistanceLabel(o, e.screen.At(), e.bottom, e.scale, scene.distance)
    case HatLayer => [Hat(e.screen.At(), e.top, e.boxWidth, e.boxHeight)]
  }

  /** The skeleton layer strokes every drawn bone between its joints'
      screen points, once in black and once in the skeleton colour. */
  lemma ContentBones(o: EspOptions, scene: Scene, box: Box3, e: Extents)
    ensures var cs := Content(Bones, o, scene, box, e);
            var proj := Skeleton.Project(box, scene.camera, scene.canvas);
            var ks := Skeleton.DrawnFrom(proj, 0);
            && |cs| == 2 * |ks|
            && forall i :: 0 <= i < |ks| ==>
                 && ks[i] < |Skeleton.Bones| && Skeleton.BothProject(proj, Skeleton.Bones[ks[i]])
                 && Skeleton.StrokesBone(cs[i], proj, ks[i], Black, 3.0)
                 && Skeleton.StrokesBone(cs[|ks| + i], proj, ks[i], Css(o.skeletonColor), 1.5)
  {
    assert Content(Bones, o, scene, box, e) == Skeleton.DrawSkeleton(box, scene.camera, scene.canvas, o.skeletonColor);
  }

  /** The enabled layers at positions `r` up to, not including, `end`
      of the drawing order, each holding the commands listed for its
      position. */
  function Layers(o: EspOptions, contents: seq<seq<Command>>, r: nat, end: nat): (ls: seq<Layer>)
    requires r <= end <= 7 && |contents| == 7
    ensures forall i :: 0 <= i < |ls| ==>
              && Enabled(o, ls[i].kind) && r <= Rank(ls[i].kind) < end
              && ls[i].commands == contents[Rank(ls[i].kind)]
    ensures forall a, b :: 0 <= a < b < |ls| ==> Rank(ls[a].kind) < Rank(ls[b].kind)
    decreases end - r
  {
    if r == end then []
    else
      var rest := Layers(o, contents, r + 1, end);
      var k := KindAt(r);
      if Enabled(o, k) then [Layer(k, contents[r])] + rest else rest
  }

  /** No enabled layer before `end` is skipped. */
  lemma {:induction false} LayersComplete(o: EspOptions, contents: seq<seq<Command>>, r: nat, end: nat,
                                          k: LayerKind)
    requires r <= end <= 7 && |contents| == 7
    requires Enabled(o, k) && r <= Rank(k) < end
    ensures Layer(k, contents[Rank(k)]) in Layers(o, contents, r, end)
    decreases end - r
  {
    if Rank(k) != r {
      LayersComplete(o, contents, r + 1, end, k);
    }
  }

  /** Every layer's commands, by position in the drawing order (a helper
      of `DrawEsp`). */
  function Contents(o: EspOptions, scene: Scene, box: Box3, e: Extents): (cs: seq<seq<Command>>)
    ensures |cs| == 7
    ensures forall k :: cs[Rank(k)] == Content(k, o, scene, box, e)
  {
    seq(7, r requires 0 <= r < 7 => Content(KindAt(r), o, scene, box, e))
  }

  /** `drawESP`: clear the canvas; stop there without a subject or when
      the centre or any silhouette anchor fails to project; otherwise
      draw every enabled layer, strictly in the fixed order, until the
      box layer throws (`Reached`). */
  function DrawEsp(o: EspOptions, scene: Scene): (f: Frame)
    ensures f.clear == ClearRect(0.0, 0.0, scene.canvas.width as real, scene.canvas.height as real)
    ensures f.layers != [] ==> scene.subject.Some? && Measure(scene.subject.value, scene.camera, scene.canvas).Some?
    ensures forall a, b :: 0 <= a < b < |f.layers| ==> Rank(f.layers[a].kind) < Rank(f.layers[b].kind)
    ensures forall l :: l in f.layers ==> Enabled(o, l.kind)
  {
    var clear := ClearRect(0.0, 0.0, scene.canvas.width as real, scene.canvas.height as real);
    match scene.subject
    case None => Frame(clear, [])
    case Some(box) =>
      match Measure(box, scene.camera, scene.canvas)
      case None => Frame(clear, [])
      case Some(e) => Frame(clear, Layers(o, Contents(o, scene, box, e), 0, Reached(o, e)))
  }

  /** When the subject is present and measured, each layer appears
      exactly when its option is on and the frame gets that far, and then
      holds what its drawing routine draws for the measured extents. */
  lemma LayerPresence(o: EspOptions, scene: Scene, k: LayerKind)
    requires scene.subject.Some?
    requires Measure(scene.subject.value, scene.camera, scene.canvas).Some?
    ensures var f := DrawEsp(o, scene);
            var box := scene.subject.value;
            var e := Measure(box, scene.camera, scene.canvas).value;
            && (Enabled(o, k) && Rank(k) < Reached(o, e) <==> exists l :: l in f.layers && l.kind == k)
            && (Enabled(o, k) && Rank(k) < Reached(o, e) ==> Layer(k, Content(k, o, scene, box, e)) in f.layers)
  {
    var f := DrawEsp(o, scene);
    var box := scene.subject.value;
    var e := Measure(box, scene.camera, scene.canvas).value;
    var cs := Contents(o, scene, box, e);
    if Enabled(o, k) && Rank(k) < Reached(o, e) {
      LayersComplete(o, cs, 0, Reached(o, e), k);
      assert Layer(k, Content(k, o, scene, box, e)) in f.layers;
    }
  }

  /** The frame is cut short exactly when the box layer is on in the glow
      style and the top anchor projects below the bottom one: the box
      layer then holds only the optional fill, and no skeleton, health
      bar, name, distance or hat follows. */
  lemma GlowAbort(o: EspOptions, scene: Scene)
    requires scene.subject.Some?
    requires Measure(scene.subject.value, scene.camera, scene.canvas).Some?
    ensures var e := Measure(scene.subject.value, scene.camera, scene.canvas).value;
            Reached(o, e) < 7 <==> o.box && o.boxType == 1 && e.bottom < e.top
    ensures var e := Measure(scene.subject.value, scene.camera, scene.canvas).value;
            var f := DrawEsp(o, scene);
            o.box && o.boxType == 1 && e.bottom < e.top ==>
              && Layer(BoxLayer, BoxStyles.BoxFill(o, BoxRect(e))) in f.layers
              && forall l :: l in f.layers ==> Rank(l.kind) <= Rank(BoxLayer)
  {
    var box := scene.subject.value;
    var e := Measure(box, scene.camera, scene.canvas).value;
    assert BoxRect(e).Width() >= 0.0;
    if o.box && o.boxType == 1 && e.bottom < e.top {
      LayerPresence(o, scene, BoxLayer);
    }
  }

  /** The bail-out rule: with a subject, layers are drawn only when the
      centre and all four anchors project; a single failed anchor leaves
      just the clear, even for layers that need only the centre. */
  lemma BailOut(o: EspOptions, scene: Scene, i: nat)
    requires scene.subject.Some? && i < 5
    requires Projections(scene.subject.value, scene.camera, scene.canvas)[i].None?
    ensures DrawEsp(o, scene).layers == []
  {
  }

  /** With the default options the frame holds, in order, the tracer, the
      outline box, the skeleton, the health bar, the name and the
      distance, and no hat. */
  lemma DefaultLayers(scene: Scene)
    requires scene.subject.Some?
    requires Measure(scene.subject.value, scene.camera, scene.canvas).Some?
    ensures var ls := DrawEsp(Defaults, scene).layers;
            && |ls| == 6
            && ls[0].kind == Tracers && ls[1].kind == BoxLayer && ls[2].kind == Bones
            && ls[3].kind == Health && ls[4].kind == Name && ls[5].kind == Distance
  {
    var box := scene.subject.value;
    var cs := Contents(Defaults, scene, box, Measure(box, scene.camera, scene.canvas).value);
    DefaultLayersFrom(cs);
  }

  lemma DefaultLayersFrom(cs: seq<seq<Command>>)
    requires |cs| == 7
    ensures var ls := Layers(Defaults, cs, 0, 7);
            && |ls| == 6
            && ls[0].kind == Tracers && ls[1].kind == BoxLayer && ls[2].kind == Bones
            && ls[3].kind == Health && ls[4].kind == Name && ls[5].kind == Distance
  {
    assert Layers(Defaults, cs, 6, 7) == [];
    assert Layers(Defaults, cs, 5, 7) == [Layer(Distance, cs[5])];
    assert Layers(Defaults, cs, 4, 7) == [Layer(Name, cs[4]), Layer(Distance, cs[5])];
  }

  /** The tracer runs to the projected centre of the subject, and the
      health bar stands just left of the box. */
  lemma LayerGeometry(o: EspOptions, scene: Scene)
    requires scene.subject.Some?
    requires Measure(scene.subject.value, scene.camera, scene.canvas).Some?
    ensures var box := scene.subject.value;
            var e := Measure(box, scene.camera, scene.canvas).value;
            var tracer := Content(Tracers, o, scene, box, e);
            var bar := Content(Health, o, scene, box, e);
            && tracer[0].to == tracer[1].to == e.screen.At()
            && (forall i :: 0 <= i < 3 ==> bar[i].x + bar[i].w == e.left - HealthBar.BarGap)
            && e.left <= e.screen.x <= e.right
  {
  }

  /** One tick of `animate`: advance the health value, then draw the
      frame with the new value. */
  function AnimationFrame(o: EspOptions, s: HealthOscillator.HealthState, coin: bool, scene: Scene)
    : (r: (HealthOscillator.HealthState, Frame))
    ensures r.0 == HealthOscillator.Tick(s, coin)
    ensures HealthOscillator.Valid(s) ==> HealthOscillator.Valid(r.0) && 0.0 <= r.0.value <= 100.0
    ensures r.1 == DrawEsp(o, scene.(health := r.0.value))
  {
    var next := HealthOscillator.Tick(s, coin);
    (next, DrawEsp(o, scene.(health := next.value)))
  }

  /** In every animation frame from a valid oscillator state, the
      health bar `Content` draws for the new value has its fill within
      the box height, in proportion to that value. */
  lemma AnimatedBar(s: HealthOscillator.HealthState, coin: bool, e: Extents)
    requires HealthOscillator.Valid(s)
    requires e.boxHeight >= 0.0
    ensures var next := HealthOscillator.Tick(s, coin);
            var bar := HealthBar.Bar(e.left, e.top, e.bottom, e.boxHeight, next.value);
            && bar[1].h * 100.0 == e.boxHeight * next.value
            && 0.0 <= bar[1].h <= e.boxHeight
  {
    var next := HealthOscillator.Tick(s, coin);
    assert HealthOscillator.Valid(next);
    BarFill(e, next.value);
  }

  /** The bar's fill for any health value in range. */
  lemma BarFill(e: Extents, health: real)
    requires 0.0 <= health <= 100.0 && e.boxHeight >= 0.0
    ensures var bar := HealthBar.Bar(e.left, e.top, e.bottom, e.boxHeight, health);
            && bar[1].h * 100.0 == e.boxHeight * health
            && 0.0 <= bar[1].h <= e.boxHeight
  {
  }
}

=== FILE: reals.dfy ===
/** The small real-valued helpers (`Math.abs`, `Math.min`, `Math.max`)
    the drawing code leans on. */
module Reals {

  function Abs(x: real): (a: real)
    ensures a >= 0.0 && (a == x || a == -x)
  {
    if x < 0.0 then -x else x
  }

  function Min(a: real, b: real): (m: real)
    ensures m <= a && m <= b && (m == a || m == b)
  {
    if a <= b then a else b
  }

  function Max(a: real, b: real): (m: real)
    ensures m >= a && m >= b && (m == a || m == b)
  {
    if a < b then b else a
  }
}

=== FILE: seqs.dfy ===
/** Indexing facts about sequences built from three parts, shared by the
    drawing styles that lay their commands out part by part. */
module Seqs {
  /** Indexing into the middle part of a three-part sequence. */
  lemma InMiddle<T>(a: seq<T>, b: seq<T>, c: seq<T>, k: nat)
    requires k < |b|
    ensures (a + b + c)[|a| + k] == b[k]
  {
  }

  /** Indexing into the last part of a three-part sequence. */
  lemma InLast<T>(a: seq<T>, b: seq<T>, c: seq<T>, j: nat)
    requires j < |c|
    ensures (a + b + c)[|a| + |b| + j] == c[j]
  {
  }
}

=== FILE: skeleton.dfy ===
/** The stick figure of `drawSkeleton`: eighteen joints placed at fixed
    fractions of the subject's bounding box, seventeen bones between
    them, and two stroke passes over the bones whose both ends project. */
module Skeleton {
  import opened Nullable
  import opened Geometry
  import opened Draw

  datatype Joint =
    | Head | Neck | SpineTop | SpineMid | SpineBottom | Hip
    | LeftShoulder | RightShoulder | LeftElbow | RightElbow | LeftHand | RightHand
    | LeftHip | RightHip | LeftKnee | RightKnee | LeftFoot | RightFoot

  /** The world position of each joint, computed the way the code
      computes it: heights as a fraction of the box height above `min.y`,
      arms offset from the shoulders, forearms pushed forward in z. The
      arithmetic puts every joint exactly where the placement table
      (`Placement`, below) says. */
  function JointPosition(box: Box3, j: Joint): (p: Vec3)
    ensures p == Place(box, Placement(j))
  {
    var c := box.Center();
    var w := box.max.x - box.min.x;
    var h := box.max.y - box.min.y;
    var d := box.max.z - box.min.z;
    var shoulderWidth := w * 0.4;
    match j
    case Head => Vec3(c.x, box.max.y, c.z)
    case Neck => Vec3(c.x, box.min.y + h * 0.85, c.z)
    case SpineTop => Vec3(c.x, box.min.y + h * 0.75, c.z)
    case SpineMid => Vec3(c.x, box.min.y + h * 0.6, c.z)
    case SpineBottom => Vec3(c.x, box.min.y + h * 0.45, c.z)
    case Hip => Vec3(c.x, box.min.y + h * 0.3, c.z)
    case LeftShoulder => Vec3(c.x - shoulderWidth / 2.0, box.min.y + h * 0.75, c.z)
    case RightShoulder => Vec3(c.x + shoulderWidth / 2.0, box.min.y + h * 0.75, c.z)
    case LeftElbow => Vec3(c.x - shoulderWidth / 2.0 - w * 0.15, box.min.y + h * 0.6, c.z + d * 0.1)
    case RightElbow => Vec3(c.x + shoulderWidth / 2.0 + w * 0.15, box.min.y + h * 0.6, c.z + d * 0.1)
    case LeftHand => Vec3(c.x - shoulderWidth / 2.0 - w * 0.25, box.min.y + h * 0.45, c.z + d * 0.15)
    case RightHand => Vec3(c.x + shoulderWidth / 2.0 + w * 0.25, box.min.y + h * 0.45, c.z + d * 0.15)
    case LeftHip => Vec3(c.x - w * 0.15, box.min.y + h * 0.3, c.z)
    case RightHip => Vec3(c.x + w * 0.15, box.min.y + h * 0.3, c.z)
    case LeftKnee => Vec3(c.x - w * 0.15, box.min.y + h * 0.15, c.z)
    case RightKnee => Vec3(c.x + w * 0.15, box.min.y + h * 0.15, c.z)
    case LeftFoot => Vec3(c.x - w * 0.15, box.min.y, c.z)
    case RightFoot => Vec3(c.x + w * 0.15, box.min.y, c.z)
  }

  /** A joint's place as three fractions of the box: across from the
      centre (of the width), up from the floor (of the height) and
      forward from the centre (of the depth). */
  datatype Fractions = Fractions(across: real, up: real, forward: real)

  /** The reference table of joint placements. */
  function Placement(j: Joint): Fractions {
    match j
    case Head => Fractions(0.0, 1.0, 0.0)
    case Neck => Fractions(0.0, 0.85, 0.0)
    case SpineTop => Fractions(0.0, 0.75, 0.0)
    case SpineMid => Fractions(0.0, 0.6, 0.0)
    case SpineBottom => Fractions(0.0, 0.45, 0.0)
    case Hip => Fractions(0.0, 0.3, 0.0)
    case LeftShoulder => Fractions(-0.2, 0.75, 0.0)
    case RightShoulder => Fractions(0.2, 0.75, 0.0)
    case LeftElbow => Fractions(-0.35, 0.6, 0.1)
    case RightElbow => Fractions(0.35, 0.6, 0.1)
    case LeftHand => Fractions(-0.45, 0.45, 0.15)
    case RightHand => Fractions(0.45, 0.45, 0.15)
    case LeftHip => Fractions(-0.15, 0.3, 0.0)
    case RightHip => Fractions(0.15, 0.3, 0.0)
    case LeftKnee => Fractions(-0.15, 0.15, 0.0)
    case RightKnee => Fractions(0.15, 0.15, 0.0)
    case LeftFoot => Fractions(-0.15, 0.0, 0.0)
    case RightFoot => Fractions(0.15, 0.0, 0.0)
  }

  /** The point a placement names in a box. */
  function Place(box: Box3, f: Fractions): Vec3 {
    Vec3(box.Center().x + f.across * (box.max.x - box.min.x),
         box.min.y + f.up * (box.max.y - box.min.y),
         box.Center().z + f.forward * (box.max.z - box.min.z))
  }

  /** Every placement lies within the box's fractions: at most half the
      width or depth from the centre, and between floor and top. */
  lemma PlacementBounds(j: Joint)
    ensures var f := Placement(j);
            -0.5 <= f.across <= 0.5 && 0.0 <= f.up <= 1.0 && -0.5 <= f.forward <= 0.5
  {
  }

  /** So every joint of a non-empty box lies inside the box. */
  lemma JointsInsideBox(box: Box3, j: Joint)
    requires box.NonEmpty()
    ensures box.Contains(JointPosition(box, j))
  {
    PlacementBounds(j);
    var f := Placement(j);
    var w, h, d := box.max.x - box.min.x, box.max.y - box.min.y, box.max.z - box.min.z;
    ScaleWithin(f.across, w);
    ScaleWithin(f.forward, d);
    UpWithin(f.up, h);
  }

  lemma ScaleWithin(f: real, w: real)
    requires -0.5 <= f <= 0.5 && w >= 0.0
    ensures -w / 2.0 <= f * w <= w / 2.0
  {
    assert f * w + w / 2.0 == (f + 0.5) * w;
    assert w / 2.0 - f * w == (0.5 - f) * w;
  }

  lemma UpWithin(f: real, h: real)
    requires 0.0 <= f <= 1.0 && h >= 0.0
    ensures 0.0 <= f * h <= h
  {
    assert h - f * h == (1.0 - f) * h;
  }

  /** The joint on the other side of the body (the spine maps to itself). */
  function Mirror(j: Joint): (m: Joint)
    ensures Placement(m).across == -Placement(j).across
    ensures Placement(m).up == Placement(j).up && Placement(m).forward == Placement(j).forward
  {
    match j
    case LeftShoulder => RightShoulder  case RightShoulder => LeftShoulder
    case LeftElbow => RightElbow        case RightElbow => LeftElbow
    case LeftHand => RightHand          case RightHand => LeftHand
    case LeftHip => RightHip            case RightHip => LeftHip
    case LeftKnee => RightKnee          case RightKnee => LeftKnee
    case LeftFoot => RightFoot          case RightFoot => LeftFoot
    case _ => j
  }

  /** Mirrored joints sit at the same height and depth, on opposite sides
      of the box's centre line. */
  lemma MirrorSymmetric(box: Box3, j: Joint)
    ensures Mirror(Mirror(j)) == j
    ensures var p, q := JointPosition(box, j), JointPosition(box, Mirror(j));
            p.x + q.x == 2.0 * box.Center().x && p.y == q.y && p.z == q.z
  {
  }

  /** The bones in drawing order: the spine from head to hip, the left
      arm, the right arm, the left leg, the right leg. */
  const Bones: seq<(Joint, Joint)> := [
    (Head, Neck),
    (Neck, SpineTop), (SpineTop, SpineMid), (SpineMid, SpineBottom), (SpineBottom, Hip),
    (SpineTop, LeftShoulder), (LeftShoulder, LeftElbow), (LeftElbow, LeftHand),
    (SpineTop, RightShoulder), (RightShoulder, RightElbow), (RightElbow, RightHand),
    (Hip, LeftHip), (LeftHip, LeftKnee), (LeftKnee, LeftFoot),
    (Hip, RightHip), (RightHip, RightKnee), (RightKnee, RightFoot)]

  /** The bone that ends at each joint but the head. */
  function BoneTo(j: Joint): nat {
    match j
    case Head => 0            case Neck => 0             case SpineTop => 1
    case SpineMid => 2        case SpineBottom => 3      case Hip => 4
    case LeftShoulder => 5    case LeftElbow => 6        case LeftHand => 7
    case RightShoulder => 8   case RightElbow => 9       case RightHand => 10
    case LeftHip => 11        case LeftKnee => 12        case LeftFoot => 13
    case RightHip => 14       case RightKnee => 15       case RightFoot => 16
  }

  /** The bones form a tree hanging from the head and are listed parent
      before child: the first bone starts at the head, every later bone
      starts where an earlier bone ends, and no two bones end at the same
      joint or at the head. */
  lemma BonesFormTree()
    ensures |Bones| == 17
    ensures Bones[0].0 == Head
    // the bone ending where bone k starts comes earlier in the list
    ensures forall k :: 1 <= k < 17 ==> Bones[k].0 != Head && BoneTo(Bones[k].0) < k
    // each bone is the one `BoneTo` names for its end joint, so no two
    // bones end at the same joint
    ensures forall k :: 0 <= k < 17 ==> Bones[k].1 != Head && BoneTo(Bones[k].1) == k
  {
  }

  /** Hence no two bones end at the same joint. */
  lemma BoneEndsDistinct(k: nat, l: nat)
    requires k < l < 17
    ensures Bones[k].1 != Bones[l].1
  {
    BonesFormTree();
  }

  /** The seventeen bones reach all eighteen joints. */
  lemma BonesReachEveryJoint(j: Joint)
    requires j != Head
    ensures BoneTo(j) < |Bones| && Bones[BoneTo(j)].1 == j
  {
  }

  /** A projection of every joint, `None` where it fails. */
  type Projection = Joint -> Option<ScreenPos>

  function Project(box: Box3, camera: Camera, canvas: Canvas): Projection {
    (j: Joint) => WorldToScreen(camera, JointPosition(box, j), canvas)
  }

  predicate BothProject(proj: Projection, bone: (Joint, Joint)) {
    proj(bone.0).Some? && proj(bone.1).Some?
  }

  /** The indices, from `i` on and in order, of the bones whose ends
      both project. */
  function DrawnFrom(proj: Projection, i: nat): (ks: seq<nat>)
    requires i <= |Bones|
    ensures forall k :: k in ks <==> i <= k < |Bones| && BothProject(proj, Bones[k])
    ensures forall a, b :: 0 <= a < b < |ks| ==> ks[a] < ks[b]
    ensures |ks| <= |Bones| - i
    decreases |Bones| - i
  {
    if i == |Bones| then []
    else
      var rest := DrawnFrom(proj, i + 1);
      assert forall b :: 0 <= b < |rest| ==> rest[b] in rest;
      if BothProject(proj, Bones[i]) then [i] + rest else rest
  }

  /** The screen segment of a bone whose ends project (`drawLine`). */
  function Segment(proj: Projection, k: nat): (Point, Point)
    requires k < |Bones| && BothProject(proj, Bones[k])
  {
    (proj(Bones[k].0).value.At(), proj(Bones[k].1).value.At())
  }

  /** Every listed index names a bone whose ends project. */
  predicate Drawable(proj: Projection, ks: seq<nat>) {
    forall i :: 0 <= i < |ks| ==> ks[i] < |Bones| && BothProject(proj, Bones[ks[i]])
  }

  /** One stroke pass over the drawn bones. */
  function StrokePass(proj: Projection, ks: seq<nat>, paint: Paint, width: real): (cmds: seq<Command>)
    requires Drawable(proj, ks)
    ensures |cmds| == |ks|
    ensures forall i :: 0 <= i < |ks| ==>
              cmds[i] == StrokeLine(Segment(proj, ks[i]).0, Segment(proj, ks[i]).1, paint, width)
  {
    seq(|ks|, i requires 0 <= i < |ks| =>
      StrokeLine(Segment(proj, ks[i]).0, Segment(proj, ks[i]).1, paint, width))
  }

  /** `c` strokes bone `k` from its first joint's screen point to its
      second's, with the given paint and width. */
  predicate StrokesBone(c: Command, proj: Projection, k: nat, paint: Paint, width: real)
    requires k < |Bones| && BothProject(proj, Bones[k])
  {
    && c.StrokeLine?
    && c.from == proj(Bones[k].0).value.At() && c.to == proj(Bones[k].1).value.At()
    && c.paint == paint && c.lineWidth == width
  }

  /** The two passes of `drawSkeleton` for given joint projections: a
      black pass of width 3 under a pass of width 1.5 in the skeleton
      colour, each stroking, in the listed order, exactly the bones whose
      two joints project (see `DrawnFrom`). */
  function SkeletonStrokes(proj: Projection, skeletonColor: string): (cmds: seq<Command>)
    ensures var ks := DrawnFrom(proj, 0);
            && |cmds| == 2 * |ks|
            && (forall i :: 0 <= i < |ks| ==>
                  && ks[i] < |Bones| && BothProject(proj, Bones[ks[i]])
                  && StrokesBone(cmds[i], proj, ks[i], Black, 3.0)
                  && StrokesBone(cmds[|ks| + i], proj, ks[i], Css(skeletonColor), 1.5))
  {
    var ks := DrawnFrom(proj, 0);
    assert forall i :: 0 <= i < |ks| ==> ks[i] in ks;
    StrokePass(proj, ks, Black, 3.0) + StrokePass(proj, ks, Css(skeletonColor), 1.5)
  }

  /** `drawSkeleton`: bone `k` is stroked exactly when neither of its
      joints lies beyond the far plane, and then in both passes, from its
      first joint's screen point to its second's. */
  function DrawSkeleton(box: Box3, camera: Camera, canvas: Canvas, skeletonColor: string): (cmds: seq<Command>)
    ensures var ks := DrawnFrom(Project(box, camera, canvas), 0);
            && |cmds| == 2 * |ks| <= 2 * |Bones|
            && forall k :: k in ks <==>
                 && 0 <= k < |Bones|
                 && camera(JointPosition(box, Bones[k].0)).z <= 1.0
                 && camera(JointPosition(box, Bones[k].1)).z <= 1.0
    // the strokes are the two passes over the projected joints, each
    // drawn bone running between its joints' screen points (see
    // `SkeletonStrokes`)
    ensures cmds == SkeletonStrokes(Project(box, camera, canvas), skeletonColor)
  {
    SkeletonStrokes(Project(box, camera, canvas), skeletonColor)
  }

  /** With every joint projecting, all seventeen bones are drawn in both
      passes, in the listed order. */
  lemma AllBonesDrawn(proj: Projection, skeletonColor: string)
    requires forall j: Joint :: proj(j).Some?
    ensures var ks := DrawnFrom(proj, 0);
            |ks| == 17 && forall k :: 0 <= k < 17 ==> ks[k] == k
    ensures |SkeletonStrokes(proj, skeletonColor)| == 34
  {
    AllDrawnFrom(proj, 0);
  }

  lemma {:induction false} AllDrawnFrom(proj: Projection, i: nat)
    requires i <= |Bones|
    requires forall j: Joint :: proj(j).Some?
    ensures var ks := DrawnFrom(proj, i);
            |ks| == |Bones| - i && forall k :: 0 <= k < |ks| ==> ks[k] == i + k
    decreases |Bones| - i
  {
    if i < |Bones| {
      var rest := DrawnFrom(proj, i + 1);
      AllDrawnFrom(proj, i + 1);
      assert BothProject(proj, Bones[i]);
      var ks := DrawnFrom(proj, i);
      assert ks == [i] + rest;
      forall k | 0 <= k < |ks|
        ensures ks[k] == i + k
      {
        if k > 0 {
          assert ks[k] == rest[k - 1];
        }
      }
    }
  }
}

=== FILE: wireframe.dfy ===
/** The 3D wireframe box style (`draw3DBox`): the eight corners of the
    bounding box in a fixed order, twelve edges and six faces given as
    index tables against that order, and an all-or-nothing policy when
    a corner fails to project. */
module Wireframe {
  import opened Nullable
  import opened Geometry
  import opened Draw
  import Colors
  import Seqs

  /** Which bound each coordinate of a corner takes (`true` = max). */
  datatype Pick = Pick(maxX: bool, maxY: bool, maxZ: bool)

  /** The corner order of `corners3D`: the four bottom corners (min y)
      as a loop over (x,z) — (min,min), (max,min), (max,max), (min,max) —
      then the same four at max y. */
  const CornerOrder: seq<Pick> := [
    Pick(false, false, false), Pick(true, false, false), Pick(true, false, true), Pick(false, false, true),
    Pick(false, true, false), Pick(true, true, false), Pick(true, true, true), Pick(false, true, true)]

  /** Corner index pairs joined by a line, as listed in the source. */
  const Edges: seq<(nat, nat)> := [
    (0, 1), (1, 2), (2, 3), (3, 0),
    (4, 5), (5, 6), (6, 7), (7, 4),
    (0, 4), (1, 5), (2, 6), (3, 7)]

  /** The corner quads filled when the box is filled, in source order. */
  const Faces: seq<seq<nat>> := [
    [0, 1, 5, 4], [2, 3, 7, 6], [4, 5, 6, 7], [0, 1, 2, 3], [0, 3, 7, 4], [1, 2, 6, 5]]

  /** The alpha of the face fill. */
  const FaceAlpha: real := 0.15

  function CornerAt(box: Box3, p: Pick): Vec3 {
    Vec3(if p.maxX then box.max.x else box.min.x,
         if p.maxY then box.max.y else box.min.y,
         if p.maxZ then box.max.z else box.min.z)
  }

  /** The eight corners of the box, in table order. */
  function Corners3D(box: Box3): (cs: seq<Vec3>)
    ensures |cs| == 8
    ensures forall i :: 0 <= i < 8 ==> box.NonEmpty() ==> box.Contains(cs[i])
  {
    seq(8, i requires 0 <= i < 8 => CornerAt(box, CornerOrder[i]))
  }

  /** Each coordinate of corner `i` is the bound of that axis which
      `CornerOrder[i]` picks. */
  lemma CornerCoordinates(box: Box3, i: nat)
    requires i < 8
    ensures var v := Corners3D(box)[i];
            && v.x == (if CornerOrder[i].maxX then box.max.x else box.min.x)
            && v.y == (if CornerOrder[i].maxY then box.max.y else box.min.y)
            && v.z == (if CornerOrder[i].maxZ then box.max.z else box.min.z)
  {
  }

  function B2N(b: bool): nat { if b then 1 else 0 }

  /** The number of axes on which two corners take different bounds. */
  function AxesApart(a: Pick, b: Pick): nat {
    B2N(a.maxX != b.maxX) + B2N(a.maxY != b.maxY) + B2N(a.maxZ != b.maxZ)
  }

  /** The number of coordinates on which two points differ. */
  function CoordsApart(a: Vec3, b: Vec3): nat {
    B2N(a.x != b.x) + B2N(a.y != b.y) + B2N(a.z != b.z)
  }

  /** A box with positive extent on every axis. */
  predicate Solid(box: Box3) {
    box.min.x < box.max.x && box.min.y < box.max.y && box.min.z < box.max.z
  }

  /** On a solid box the corners differ on exactly the axes their picks
      differ on: the eight corners are distinct, and two corners one cube
      edge apart differ in exactly one coordinate. */
  lemma SolidCorners(box: Box3, i: nat, j: nat)
    requires Solid(box) && i < 8 && j < 8
    ensures var cs := Corners3D(box);
            CoordsApart(cs[i], cs[j]) == AxesApart(CornerOrder[i], CornerOrder[j])
    ensures Adjacent(i, j) ==> CoordsApart(Corners3D(box)[i], Corners3D(box)[j]) == 1
    ensures i != j ==> Corners3D(box)[i] != Corners3D(box)[j]
  {
    CornerOrderLayout();
    CornerCoordinates(box, i);
    CornerCoordinates(box, j);
    var cs := Corners3D(box);
    var a, b := CornerOrder[i], CornerOrder[j];
    assert (cs[i].x != cs[j].x) == (a.maxX != b.maxX);
    assert (cs[i].y != cs[j].y) == (a.maxY != b.maxY);
    assert (cs[i].z != cs[j].z) == (a.maxZ != b.maxZ);
    if i != j {
      assert a != b;
    }
  }

  /** Two corner indices that a cube edge joins. */
  predicate Adjacent(i: nat, j: nat) {
    i < 8 && j < 8 && AxesApart(CornerOrder[i], CornerOrder[j]) == 1
  }

  predicate IsEdge(i: nat, j: nat) {
    (i, j) in Edges || (j, i) in Edges
  }

  /** Corner `i + 4` sits straight above corner `i`. */
  predicate StackedAbove(i: nat)
    requires i < 4
  {
    !CornerOrder[i].maxY && CornerOrder[i + 4] == CornerOrder[i].(maxY := true)
  }

  /** The corner table names eight different corners, the first four
      walking round the bottom face and the last four straight above
      them in the same order. */
  lemma CornerOrderLayout()
    ensures |CornerOrder| == 8
    ensures forall i, j :: 0 <= i < j < 8 ==> CornerOrder[i] != CornerOrder[j]
    ensures forall i :: 0 <= i < 4 ==> StackedAbove(i)
    ensures Adjacent(0, 1) && Adjacent(1, 2) && Adjacent(2, 3) && Adjacent(3, 0)
  {
    assert StackedAbove(0) && StackedAbove(1) && StackedAbove(2) && StackedAbove(3);
  }

  /** Every listed pair joins two corners one cube edge apart, and no
      pair is listed twice in either orientation. */
  lemma EdgesAreCubeEdges()
    ensures |Edges| == 12
    ensures forall k :: 0 <= k < 12 ==> Adjacent(Edges[k].0, Edges[k].1)
    ensures forall k, l :: 0 <= k < l < 12 ==> Edges[k] != Edges[l] && Edges[k] != (Edges[l].1, Edges[l].0)
  {
  }

  /** The edge table is complete: two corners are one cube edge apart
      exactly when the table lists them. */
  lemma EdgesComplete(i: nat, j: nat)
    requires i < 8 && j < 8
    ensures Adjacent(i, j) <==> IsEdge(i, j)
  {
    EdgesAreCubeEdges();
  }

  /** How many of the first `n` listed edges have corner `i` as an end. */
  function Touching(i: nat, n: nat): (c: nat)
    requires n <= |Edges|
    ensures c <= n
  {
    if n == 0 then 0
    else Touching(i, n - 1) + (if Edges[n - 1].0 == i || Edges[n - 1].1 == i then 1 else 0)
  }

  /** Every corner is the end of exactly three listed edges, as on a
      cube. */
  lemma EveryCornerHasDegreeThree(i: nat)
    requires i < 8
    ensures Touching(i, 12) == 3
  {
    assert Touching(i, 12) == Touching(i, 11) + (if i == 3 || i == 7 then 1 else 0);
    assert Touching(i, 11) == Touching(i, 10) + (if i == 2 || i == 6 then 1 else 0);
    assert Touching(i, 10) == Touching(i, 9) + (if i == 1 || i == 5 then 1 else 0);
    assert Touching(i, 9) == Touching(i, 8) + (if i == 0 || i == 4 then 1 else 0);
    assert Touching(i, 8) == Touching(i, 7) + (if i == 7 || i == 4 then 1 else 0);
    assert Touching(i, 7) == Touching(i, 6) + (if i == 6 || i == 7 then 1 else 0);
    assert Touching(i, 6) == Touching(i, 5) + (if i == 5 || i == 6 then 1 else 0);
    assert Touching(i, 5) == Touching(i, 4) + (if i == 4 || i == 5 then 1 else 0);
    assert Touching(i, 4) == Touching(i, 3) + (if i == 3 || i == 0 then 1 else 0);
    assert Touching(i, 3) == Touching(i, 2) + (if i == 2 || i == 3 then 1 else 0);
    assert Touching(i, 2) == Touching(i, 1) + (if i == 1 || i == 2 then 1 else 0);
    assert Touching(i, 1) == (if i == 0 || i == 1 then 1 else 0);
  }

  /** The (axis, bound) all four corners of a quad share, if any. Axes are
      numbered 0 = x, 1 = y, 2 = z. */
  function FixedAxis(a: Pick, b: Pick, c: Pick, d: Pick): Option<(nat, bool)> {
    if a.maxX == b.maxX == c.maxX == d.maxX then Some((0, a.maxX))
    else if a.maxY == b.maxY == c.maxY == d.maxY then Some((1, a.maxY))
    else if a.maxZ == b.maxZ == c.maxZ == d.maxZ then Some((2, a.maxZ))
    else None
  }

  function FaceAxis(f: nat): Option<(nat, bool)>
    requires f < 6
  {
    var q := Faces[f];
    FixedAxis(CornerOrder[q[0]], CornerOrder[q[1]], CornerOrder[q[2]], CornerOrder[q[3]])
  }

  /** Walking the quad follows four cube edges (see `EdgesAreCubeEdges`
      for `Adjacent` against the edge table). */
  predicate FaceOutline(f: nat)
    requires f < 6
  {
    var q := Faces[f];
    Adjacent(q[0], q[1]) && Adjacent(q[1], q[2]) && Adjacent(q[2], q[3]) && Adjacent(q[3], q[0])
  }

  /** Every face quad is a real face of the cube: its four corners share
      one bound on one axis and walking the quad follows four cube edges. */
  lemma FacesAreCubeFaces()
    ensures |Faces| == 6
    ensures forall f :: 0 <= f < 6 ==> |Faces[f]| == 4
    ensures forall f :: 0 <= f < 6 ==> FaceAxis(f).Some? && FaceOutline(f)
  {
    assert FaceAxis(0).Some? && FaceAxis(1).Some? && FaceAxis(2).Some?;
    assert FaceAxis(3).Some? && FaceAxis(4).Some? && FaceAxis(5).Some?;
    assert FaceOutline(0) && FaceOutline(1) && FaceOutline(2);
    assert FaceOutline(3) && FaceOutline(4) && FaceOutline(5);
  }

  /** The six quads are the six different faces of the cube. */
  lemma FacesDistinct()
    ensures forall f, g :: 0 <= f < g < 6 ==> FaceAxis(f) != FaceAxis(g)
  {
    assert FaceAxis(0) == Some((2, false)) && FaceAxis(1) == Some((2, true));
    assert FaceAxis(2) == Some((1, true)) && FaceAxis(3) == Some((1, false));
    assert FaceAxis(4) == Some((0, false)) && FaceAxis(5) == Some((0, true));
  }

  /** The projected corners, `None` for a corner beyond the far plane. */
  function ProjectCorners(box: Box3, camera: Camera, canvas: Canvas): (ps: seq<Option<ScreenPos>>)
    ensures |ps| == 8
    ensures forall i :: 0 <= i < 8 ==> (ps[i].None? <==> camera(Corners3D(box)[i]).z > 1.0)
  {
    var cs := Corners3D(box);
    seq(8, i requires 0 <= i < 8 => WorldToScreen(camera, cs[i], canvas))
  }

  /** A line command between two points, in either direction. */
  predicate Joins(c: Command, a: Point, b: Point) {
    c.StrokeLine? && ((c.from == a && c.to == b) || (c.from == b && c.to == a))
  }

  /** One stroke pass over all twelve edges. */
  function EdgePass(sc: seq<ScreenPos>, paint: Paint, width: real): (cmds: seq<Command>)
    requires |sc| == 8
    ensures |cmds| == 12
    ensures forall k :: 0 <= k < 12 ==>
              cmds[k] == StrokeLine(sc[Edges[k].0].At(), sc[Edges[k].1].At(), paint, width)
  {
    seq(12, k requires 0 <= k < 12 => StrokeLine(sc[Edges[k].0].At(), sc[Edges[k].1].At(), paint, width))
  }

  /** One fill per face quad, through the quad's projected corners. */
  function FacePass(sc: seq<ScreenPos>, paint: Paint): (cmds: seq<Command>)
    requires |sc| == 8
    ensures |cmds| == 6
    ensures forall f :: 0 <= f < 6 ==> cmds[f].FillPolygon? && cmds[f].paint == paint
    ensures forall f, k :: 0 <= f < 6 && 0 <= k < 4 ==>
              |cmds[f].corners| == 4 && cmds[f].corners[k] == sc[Faces[f][k]].At()
  {
    seq(6, f requires 0 <= f < 6 =>
      FillPolygon(seq(4, k requires 0 <= k < 4 => sc[Faces[f][k]].At()), paint))
  }

  /** An edge pass strokes every cube edge: for any two corners one edge
      apart, some line of the pass joins their projections. */
  lemma EdgePassCoversCube(sc: seq<ScreenPos>, paint: Paint, width: real, i: nat, j: nat)
    requires |sc| == 8 && Adjacent(i, j)
    ensures exists k :: 0 <= k < 12 && Joins(EdgePass(sc, paint, width)[k], sc[i].At(), sc[j].At())
  {
    EdgesComplete(i, j);
    var cmds := EdgePass(sc, paint, width);
    if (i, j) in Edges {
      var k :| 0 <= k < 12 && Edges[k] == (i, j);
      assert Joins(cmds[k], sc[i].At(), sc[j].At());
    } else {
      var k :| 0 <= k < 12 && Edges[k] == (j, i);
      assert Joins(cmds[k], sc[i].At(), sc[j].At());
    }
  }

  /** Whether a point lies on the face of the box that has coordinate
      `axis` (0 = x, 1 = y, 2 = z) at its max (`bound`) or min. */
  predicate OnBoxFace(box: Box3, v: Vec3, axis: nat, bound: bool) {
    if axis == 0 then v.x == (if bound then box.max.x else box.min.x)
    else if axis == 1 then v.y == (if bound then box.max.y else box.min.y)
    else v.z == (if bound then box.max.z else box.min.z)
  }

  /** Each face quad's four corners are box corners on one face of the
      box: the face `FaceAxis` names. */
  lemma FaceCornersOnBoxFace(box: Box3, f: nat, k: nat)
    requires f < 6 && k < 4
    ensures FaceAxis(f).Some?
    ensures var axis := FaceAxis(f).value;
            OnBoxFace(box, Corners3D(box)[Faces[f][k]], axis.0, axis.1)
  {
    FacesAreCubeFaces();
    CornerCoordinates(box, Faces[f][k]);
    var q := Faces[f];
    assert FaceAxis(f) == FixedAxis(CornerOrder[q[0]], CornerOrder[q[1]], CornerOrder[q[2]], CornerOrder[q[3]]);
  }

  /** `draw3DBox`: nothing at all unless all eight corners project;
      otherwise the optional face fills, then the twelve edges in black
      (width 3), then again in the box colour (width 2). */
  function Draw3DBox(box: Box3, camera: Camera, canvas: Canvas, filled: bool,
                     boxColor: string, fillColor: string): (cmds: seq<Command>)
    ensures cmds == [] <==> exists i :: 0 <= i < 8 && ProjectCorners(box, camera, canvas)[i].None?
    ensures cmds != [] ==> |cmds| == (if filled then 6 else 0) + 24
  {
    Wire(ProjectCorners(box, camera, canvas), filled, Rgba(Colors.HexToRgba(fillColor, FaceAlpha)), boxColor)
  }

  /** The drawing half of `draw3DBox`, for any eight projected corners. */
  function Wire(ps: seq<Option<ScreenPos>>, filled: bool, facePaint: Paint, boxColor: string)
    : (cmds: seq<Command>)
    requires |ps| == 8
    ensures cmds == [] <==> exists i :: 0 <= i < 8 && ps[i].None?
    ensures cmds != [] ==> |cmds| == (if filled then 6 else 0) + 24
  {
    var sc := Present(ps);
    if |sc| < 8 then []
    else
      var faces := if filled then FacePass(sc, facePaint) else [];
      faces + EdgePass(sc, Black, 3.0) + EdgePass(sc, Css(boxColor), 2.0)
  }

  /** `WireframeLayout` for any eight projected corners. */
  lemma WireLayout(ps: seq<Option<ScreenPos>>, filled: bool, facePaint: Paint, boxColor: string)
    requires |ps| == 8 && Wire(ps, filled, facePaint, boxColor) != []
    ensures var cmds := Wire(ps, filled, facePaint, boxColor);
            var off := if filled then 6 else 0;
            && (forall f :: 0 <= f < off ==> cmds[f].FillPolygon?)
            && (forall k :: 0 <= k < 12 ==>
                  && cmds[off + k] == StrokeLine(ps[Edges[k].0].value.At(), ps[Edges[k].1].value.At(), Black, 3.0)
                  && cmds[off + 12 + k] == StrokeLine(ps[Edges[k].0].value.At(), ps[Edges[k].1].value.At(), Css(boxColor), 2.0))
  {
    var cmds := Wire(ps, filled, facePaint, boxColor);
    var off := if filled then 6 else 0;
    WireParts(ps, filled, facePaint, boxColor);
    forall k | 0 <= k < 12
      ensures cmds[off + k] == StrokeLine(ps[Edges[k].0].value.At(), ps[Edges[k].1].value.At(), Black, 3.0)
      ensures cmds[off + 12 + k] == StrokeLine(ps[Edges[k].0].value.At(), ps[Edges[k].1].value.At(), Css(boxColor), 2.0)
    {
      WireEdge(ps, filled, facePaint, boxColor, k);
    }
  }

  /** How `Wire` is put together when it draws. */
  lemma WireParts(ps: seq<Option<ScreenPos>>, filled: bool, facePaint: Paint, boxColor: string)
    requires |ps| == 8 && Wire(ps, filled, facePaint, boxColor) != []
    ensures var sc := Present(ps);
            && |sc| == 8 && (forall i :: 0 <= i < 8 ==> sc[i] == ps[i].value)
            && Wire(ps, filled, facePaint, boxColor)
               == (if filled then FacePass(sc, facePaint) else []) + EdgePass(sc, Black, 3.0) + EdgePass(sc, Css(boxColor), 2.0)
  {
  }

  /** Edge `k` in both stroke passes of `Wire`. */
  lemma WireEdge(ps: seq<Option<ScreenPos>>, filled: bool, facePaint: Paint, boxColor: string, k: nat)
    requires |ps| == 8 && Wire(ps, filled, facePaint, boxColor) != [] && k < 12
    ensures var cmds := Wire(ps, filled, facePaint, boxColor);
            var off := if filled then 6 else 0;
            && cmds[off + k] == StrokeLine(ps[Edges[k].0].value.At(), ps[Edges[k].1].value.At(), Black, 3.0)
            && cmds[off + 12 + k] == StrokeLine(ps[Edges[k].0].value.At(), ps[Edges[k].1].value.At(), Css(boxColor), 2.0)
  {
    WireParts(ps, filled, facePaint, boxColor);
    var sc := Present(ps);
    var faces := if filled then FacePass(sc, facePaint) else [];
    var black, colored := EdgePass(sc, Black, 3.0), EdgePass(sc, Css(boxColor), 2.0);
    Seqs.InMiddle(faces, black, colored, k);
    Seqs.InLast(faces, black, colored, k);
    EdgeEnds(k);
    var a, b := Edges[k].0, Edges[k].1;
    assert sc[a] == ps[a].value && sc[b] == ps[b].value;
  }

  /** Both ends of every listed edge are corner indices. */
  lemma EdgeEnds(k: nat)
    requires k < 12
    ensures Edges[k].0 < 8 && Edges[k].1 < 8
  {
  }

  /** When the wireframe is drawn: the face fills come first, then each
      listed edge between the projected corners in black (width 3), then
      each edge again in the box colour (width 2). */
  lemma WireframeLayout(box: Box3, camera: Camera, canvas: Canvas, filled: bool,
                        boxColor: string, fillColor: string)
    requires Draw3DBox(box, camera, canvas, filled, boxColor, fillColor) != []
    ensures var cmds := Draw3DBox(box, camera, canvas, filled, boxColor, fillColor);
            var sc := ProjectCorners(box, camera, canvas);
            var off := if filled then 6 else 0;
            && (forall f :: 0 <= f < off ==> cmds[f].FillPolygon?)
            && (forall k :: 0 <= k < 12 ==>
                  && cmds[off + k] == StrokeLine(sc[Edges[k].0].value.At(), sc[Edges[k].1].value.At(), Black, 3.0)
                  && cmds[off + 12 + k] == StrokeLine(sc[Edges[k].0].value.At(), sc[Edges[k].1].value.At(), Css(boxColor), 2.0))
  {
    WireLayout(ProjectCorners(box, camera, canvas), filled, Rgba(Colors.HexToRgba(fillColor, FaceAlpha)), boxColor);
  }

  /** With the fill flag on, the six face quads are filled first, each
      through the projected corners of its quad, in the face colour at
      alpha 0.15. */
  lemma WireframeFaces(box: Box3, camera: Camera, canvas: Canvas,
                       boxColor: string, fillColor: string, f: nat, k: nat)
    requires Draw3DBox(box, camera, canvas, true, boxColor, fillColor) != []
    requires f < 6 && k < 4
    ensures var cmds := Draw3DBox(box, camera, canvas, true, boxColor, fillColor);
            var sc := ProjectCorners(box, camera, canvas);
            && cmds[f].FillPolygon? && |cmds[f].corners| == 4
            && cmds[f].corners[k] == sc[Faces[f][k]].value.At()
            && cmds[f].paint == Rgba(Colors.HexToRgba(fillColor, FaceAlpha))
  {
    WireFaces(ProjectCorners(box, camera, canvas), Rgba(Colors.HexToRgba(fillColor, FaceAlpha)), boxColor, f, k);
  }

  lemma WireFaces(ps: seq<Option<ScreenPos>>, facePaint: Paint, boxColor: string, f: nat, k: nat)
    requires |ps| == 8 && Wire(ps, true, facePaint, boxColor) != []
    requires f < 6 && k < 4
    ensures var cmds := Wire(ps, true, facePaint, boxColor);
            && cmds[f].FillPolygon? && |cmds[f].corners| == 4
            && cmds[f].corners[k] == ps[Faces[f][k]].value.At()
            && cmds[f].paint == facePaint
  {
    var sc := Present(ps);
    assert |sc| == 8;
    var cmds := Wire(ps, true, facePaint, boxColor);
    assert cmds[..6] == FacePass(sc, facePaint);
  }

  /** Whenever the wireframe is drawn, each of its 24 strokes joins the
      projections of two corners one cube edge apart. */
  lemma WireframeStrokesCubeEdges(box: Box3, camera: Camera, canvas: Canvas, filled: bool,
                                  boxColor: string, fillColor: string, k: nat)
    requires Draw3DBox(box, camera, canvas, filled, boxColor, fillColor) != []
    requires k < 24
    ensures var cmds := Draw3DBox(box, camera, canvas, filled, boxColor, fillColor);
            var sc := ProjectCorners(box, camera, canvas);
            var stroke := cmds[(if filled then 6 else 0) + k];
            exists i: nat, j: nat :: Adjacent(i, j) && stroke.StrokeLine?
              && stroke.from == sc[i].value.At() && stroke.to == sc[j].value.At()
  {
    WireframeLayout(box, camera, canvas, filled, boxColor, fillColor);
    EdgesAreCubeEdges();
    var e := if k < 12 then k else k - 12;
    assert Adjacent(Edges[e].0, Edges[e].1);
  }

  /** Conversely, whenever the wireframe is drawn, every cube edge is
      stroked in the black pass: for two corners one edge apart some
      black line joins their projections. */
  lemma WireframeCoversCube(box: Box3, camera: Camera, canvas: Canvas, filled: bool,
                            boxColor: string, fillColor: string, i: nat, j: nat)
    requires Draw3DBox(box, camera, canvas, filled, boxColor, fillColor) != []
    requires Adjacent(i, j)
    ensures var cmds := Draw3DBox(box, camera, canvas, filled, boxColor, fillColor);
            var sc := ProjectCorners(box, camera, canvas);
            var off := if filled then 6 else 0;
            exists k :: off <= k < off + 12 && Joins(cmds[k], sc[i].value.At(), sc[j].value.At())
  {
    WireCoversCube(ProjectCorners(box, camera, canvas), filled, Rgba(Colors.HexToRgba(fillColor, FaceAlpha)),
                   boxColor, i, j);
  }

  lemma WireCoversCube(ps: seq<Option<ScreenPos>>, filled: bool, facePaint: Paint, boxColor: string,
                       i: nat, j: nat)
    requires |ps| == 8 && Wire(ps, filled, facePaint, boxColor) != []
    requires Adjacent(i, j)
    ensures var cmds := Wire(ps, filled, facePaint, boxColor);
            var off := if filled then 6 else 0;
            exists k :: off <= k < off + 12 && Joins(cmds[k], ps[i].value.At(), ps[j].value.At())
  {
    WireParts(ps, filled, facePaint, boxColor);
    var sc := Present(ps);
    var cmds := Wire(ps, filled, facePaint, boxColor);
    var off := if filled then 6 else 0;
    var faces := if filled then FacePass(sc, facePaint) else [];
    var black, colored := EdgePass(sc, Black, 3.0), EdgePass(sc, Css(boxColor), 2.0);
    EdgePassCoversCube(sc, Black, 3.0, i, j);
    var k :| 0 <= k < 12 && Joins(black[k], sc[i].At(), sc[j].At());
    Seqs.InMiddle(faces, black, colored, k);
    assert sc[i] == ps[i].value && sc[j] == ps[j].value;
    assert Joins(cmds[off + k], ps[i].value.At(), ps[j].value.At());
  }
}
